=== FILE: README.md ===
# wegweiser in Dafny

wegweiser looks up geographic spots on Wikipedia. A spot is an article's
title, URL, latitude, longitude and optional elevation. There are two ways
to find one:

- **Search.** A term goes to the Wikipedia open-search API of one of the
  three supported languages (de, en, fr). The first candidate article of
  the reply is then scraped.
- **Scrape.** An article URL is scraped directly.

The scraper fetches the printable page and walks its `<span>` elements:

- the last `dir="auto"` span is the title;
- the first `latitude`, `longitude` and `elevation` spans are the
  coordinates.

On the English Wikipedia the coordinates are degree/minute/second text with
a compass letter, and are converted to decimal degrees. Elsewhere they are
read with `float()`.

The command-line front end does three things:

- It turns every argument into a spot, as a URL or as a search term.
- It writes the spots as JSON entries.
- It lays them out on a static map: lettered markers A to Z, an optional
  path through the spots, and an optional closed region.

## How the model is built

Everything is a pure function over immutable values. The modules follow
the structure of wegweiser:

| Module | What it holds |
|---|---|
| `Searching` | search queries and results |
| `WikiUrl` | the article URL pattern |
| `Spans` | the span traversal |
| `Degrees` | the coordinate conversion |
| `Scraping` | the article scraper |
| `Spots` | building spots |
| `Cli` | the front end |
| `MapPlan` | the static map |
| `Text` | Python's string methods |
| `Numbers` | `int()` and `float()` |
| `Errors` | exception classes |
| `Wrappers` | `Option`/`Result` |

How the outside world is represented:

- **The network** is a parameter, `Spots.Web`. It is a function from an
  open-search query URL to the reply's items, and a function from a
  printable article URL to the page's spans, in document order. XML
  parsing is therefore not modelled.
- **Number parsing.** Python's `int()` and `float()` are a parameter,
  `Numbers.Readers`. General lemmas hold for any reader. Concrete lemmas
  use `Numbers.Python`, a decimal reader: optional surrounding whitespace,
  a sign, digits, an optional fraction and an optional exponent. Numbers
  are exact reals.
- **Exceptions** are `Errors.Error` values inside an `Outcome`.
  `Errors.Class` maps each one to the Python exception class wegweiser
  raises. Where one call can raise several, the model keeps wegweiser's
  order: language before limit, latitude before longitude, seconds before
  minutes before degree.
- **Mutable objects.** A scraper's and a search's fields are returned as
  new values.

### Quirks modelled as written

These are deliberate, because they are what the code does:

- A page without a title span and without coordinates fails with
  `UnboundLocalError`, not the geographic-spot warning. The warning's
  message reads the unassigned local `title`.
- The conversion's warning names the scraper's title from before the
  scrape: `None` for a fresh scraper. The new title is stored only after
  the conversion (`Scraping.StaleTitleWarning`).
- The English branch is a substring test for `en.wikipedia.org` on the
  whole URL, article name included.
- The scraper's URL pattern (wegweiser/core.py:65) admits only `http`
  article URLs, so every `https` URL is refused. It does not escape its
  dots, so any character stands where a dot is written.
- Every `dir="auto"` span overwrites the title (wegweiser/core.py:82-84),
  so the last one on the page wins.
- The limit check is `range(1,100)`, so 100 is refused even though the
  error message says "1-100".
- `float(None)` raises `TypeError` and `None.replace` raises
  `AttributeError`. Both are reachable when a coordinate span has no text.
- Search results accumulate across calls of `search_term`.

## Model

| member | source | states |
|---|---|---|
| Searching.NewSearch | wegweiser/core.py:16-24 | A search is created exactly when the language is de, en or fr and the limit is 1..99. A bad language is reported before a bad limit, and both are `ValueError`. A new search has no results. |
| Searching.DefaultSearch | wegweiser/core.py:16 | The default search is German with a limit of three. |
| Searching.LimitEdges | tests.py:44-53 | Limits 0, 100, -1234, -1, 101 and 356 are refused, and 1, 50 and 99 are accepted. Italian and Spanish are refused. |
| Searching.Escape | wegweiser/core.py:27 | No space is left in the escaped term. |
| Searching.EscapeRoundTrip | wegweiser/core.py:27 | For a term without `%`, reading `%20` back as a space gives the term again. |
| Searching.EscapeLength | wegweiser/core.py:27 | Escaping adds two characters for every space. |
| Searching.QueryUrl | wegweiser/core.py:12-27 | No contract of its own: `Searching.QueryUrlFields` pins down where the language, the escaped term and the limit sit in the URL. |
| Searching.QueryUrlFields | wegweiser/core.py:12-27 | The query URL carries all three fields of a valid search, whatever the term. The language follows `http://`. The part after `search=` is the term with every space escaped, and for a term without `%` it reads back as the term. The text after `limit=` parses as the limit. |
| Searching.AppendReply | wegweiser/core.py:32-42 | The reply's items come after the results already gathered, which are unchanged, one item per reply entry in order. Term, language and limit are kept. |
| Searching.EvaluateResult | wegweiser/core.py:32-42 | The loop computes exactly `Searching.AppendReply`: one `{title, url}` entry is appended per reply item, in document order, after the existing results. Term, language and limit do not change. |
| Searching.SearchTerm | wegweiser/core.py:26-30 | A search keeps its term, language and limit. The server's reply is appended item by item after the results already gathered, which stay unchanged. |
| Searching.SearchAccumulates | wegweiser/core.py:24-30 | A new search's results are the server's reply. Searching again appends the reply a second time. |
| WikiUrl.Matches | wegweiser/core.py:65-66 | No contract of its own: `WikiUrl.ArticleUrlMatches` characterises it on article URLs, and `WikiUrl.SchemesDisjoint`, `WikiUrl.MatchesExtend` and `WikiUrl.DotMatchesAnyCharacter` give its other properties. The front end's `https` pattern (wegweiser/__wegweiser__.py:111-113) is the same predicate with another scheme. |
| WikiUrl.ArticleUrlMatches | wegweiser/core.py:65-66 | A URL `<scheme>://<ll>.wikipedia.org/wiki/<article>` matches exactly when `ll` is a supported language and the article name is non-empty and does not start with a newline. |
| WikiUrl.SchemesDisjoint | wegweiser/__wegweiser__.py:111-113 | No URL matches both the front end's `https` pattern and the scraper's `http` pattern. |
| WikiUrl.MatchesExtend | wegweiser/core.py:65-66 | The match is anchored only at the start: appending text to a matching URL keeps it matching. |
| WikiUrl.DotMatchesAnyCharacter | wegweiser/core.py:65 | Because the dots are unescaped, `http://enXwikipediaYorg/wiki/A` is accepted. |
| WikiUrl.TestUrls | tests.py:86-94 | The English New York City URL is accepted. The Italian URL, the empty article and google.de are refused. |
| WikiUrl.IsEnglish | wegweiser/core.py:100 | No contract of its own: `WikiUrl.EnglishHost`, `WikiUrl.NonEnglishHost` and `WikiUrl.EnglishAnywhere` decide it on article URLs. |
| WikiUrl.EnglishAnywhere | wegweiser/core.py:100 | A URL whose article name contains `en.wikipedia.org` takes the English branch. |
| WikiUrl.EnglishHost | wegweiser/core.py:100 | Every English-host URL takes the English branch. |
| WikiUrl.NonEnglishHost | wegweiser/core.py:100 | A German or French article URL takes the English branch exactly when its article name contains `en.wikipedia.org`. |
| WikiUrl.HttpNotHttps | wegweiser/__wegweiser__.py:111-113 | No URL matches both the `http` and the `https` pattern. |
| Spans.FirstOfClass | wegweiser/core.py:85-97 | A class's slot is set exactly when some span has that class, and it then holds the text of such a span. |
| Spans.LastTitle | wegweiser/core.py:82-84 | The title slot is set exactly when some span has `dir="auto"`, and it then holds the text of such a span. |
| Spans.FirstOfClassSnoc | wegweiser/core.py:85-97 | A span added after the first match of its class does not change the slot. An earlier-unset slot takes the new span's text if the class matches. |
| Spans.FirstMatchWins | wegweiser/core.py:85-97 | Spans after the first match of a class never change that class's slot. |
| Spans.LastMatchWins | wegweiser/core.py:82-84 | A later title span always replaces the title seen before it. |
| Spans.Scan | wegweiser/core.py:80-97 | No contract of its own: the reference result of the traversal. `Spans.TraverseSpans` proves the loop computes it. |
| Spans.TraverseSpans | wegweiser/core.py:80-97 | The loop over the spans yields the last title and the first latitude, longitude and elevation. |
| Degrees.Tokens | wegweiser/core.py:110-111 | No contract of its own: `Degrees.DmsTokens` shows that rendered degree, minute and second text splits into its four parts. |
| Degrees.DecimalDegree | wegweiser/core.py:109-117 | Any token count other than 3 or 4 gives the geographic-spot warning naming the title. Every other failure is a `ValueError` naming one of the tokens. |
| Degrees.FromTokens | wegweiser/core.py:111-121 | Same as `DecimalDegree`, stated for the token list. |
| Degrees.Sexagesimal | wegweiser/core.py:121 | With four tokens, seconds are read first, then minutes, then degree. The first one that fails gives the error. |
| Degrees.Minutes | wegweiser/core.py:119 | With three tokens, minutes are read before degree. |
| Degrees.SexagesimalValue | wegweiser/core.py:121-123 | Numbers for seconds, minutes and degree give degree + minutes/60 + seconds/3600, signed by the orientation. |
| Degrees.MinutesValue | wegweiser/core.py:119-123 | Numbers for minutes and degree give degree + minutes/60, signed by the orientation. |
| Degrees.FourTokenValue | wegweiser/core.py:112-123 | Four readable tokens convert to degree + minutes/60 + seconds/3600, negated for W or S. |
| Degrees.ThreeTokenValue | wegweiser/core.py:114-123 | Three readable tokens convert to degree + minutes/60, negated for W or S. |
| Degrees.UnreadableToken | wegweiser/core.py:118-121 | An unreadable numeric token makes the conversion fail with a `ValueError`. The error names the first unreadable token in the order the expression reads them: seconds, then minutes, then degree. |
| Degrees.DecimalDegreeTitle | wegweiser/core.py:117 | The title matters only for the warning: a successful conversion gives the same value under any title. |
| Degrees.GlyphsReplaced | wegweiser/core.py:110 | Replacing the degree, prime and double-prime glyphs with spaces turns rendered coordinate text into its parts separated by two spaces each. |
| Degrees.DmsTokens | wegweiser/core.py:110-113 | Rendered degree/minute/second text with a compass letter splits into exactly its four parts. |
| Degrees.DmsValue | wegweiser/core.py:109-124 | Rendered text whose parts are readable converts to the signed sexagesimal value of the parts. |
| Degrees.WithinOneDegree | wegweiser/core.py:118-124 | For minutes of at most 59 and seconds below 60, the converted value lies within one degree of the degree token, on the side the orientation gives. |
| Degrees.Orient | wegweiser/core.py:122-123 | No contract of its own: `Degrees.OrientCompass` and `Degrees.OrientBound` give its sign. |
| Degrees.OrientCompass | wegweiser/core.py:122-123 | N keeps the sign and W flips it. |
| Degrees.Coordinate | wegweiser/core.py:109-124 | Whole degrees, minutes and seconds rendered with the glyphs are converted by `Python` to their signed value. |
| Degrees.NewYorkCity | wegweiser/core.py:109-124 | `40° 7′ 23″ N` converts to 40 + 7/60 + 23/3600, and `74° 0′ 21″ W` to its negation. |
| Degrees.DecimalText | wegweiser/core.py:119-121 | `int()` and `float()` read back the decimal text of a natural number. |
| Numbers.ToFloat | wegweiser/core.py:104-105 | `float()` succeeds exactly when the reader accepts the text. Otherwise it raises a `ValueError` naming the text. |
| Numbers.ToInt | wegweiser/core.py:119 | `int()` succeeds exactly when the reader accepts the text. Otherwise it raises a `ValueError` naming the text. |
| Numbers.ParseIntRoundTrip | wegweiser/__wegweiser__.py:164 | `int(str(i)) == i` for every integer. |
| Numbers.ParseIntShape | wegweiser/core.py:119 | Text that `int()` accepts is, once stripped, an optional sign followed by digits. |
| Numbers.ParseFloatOfInt | wegweiser/core.py:104-105 | The model's `float()` reader accepts every text its `int()` reader accepts, with the same value. |
| Numbers.ParseFloatOfDecimal | wegweiser/core.py:104-105 | `float(str(i)) == i` for every integer. |
| Numbers.ParseFloatFraction | wegweiser/core.py:104-105 | `float()` reads digits, a point and digits as the whole part plus the fraction. |
| Scraping.NewScrape | wegweiser/core.py:64-72 | A scraper is created exactly when the URL matches the `http` article pattern; otherwise the error is `ValueError`. A new scraper holds only the URL. |
| Scraping.PrintableUrl | wegweiser/core.py:62 | No contract of its own: the printable URL the page is fetched from. The fetch itself is a parameter, so no lemma relates the two. |
| Scraping.HttpsRejected | wegweiser/core.py:65-67 | No `https` article URL is accepted. |
| Scraping.FloatOf | wegweiser/core.py:104-105 | A number stays itself, text is parsed, and `None` raises `TypeError`. |
| Scraping.Convert | wegweiser/core.py:101-102 | Missing coordinate text raises `AttributeError`. A successful conversion comes from a successful `DecimalDegree`, and a failed one raises exactly `DecimalDegree`'s error, with the title it was given. |
| Scraping.Localize | wegweiser/core.py:100-102 | A URL that is not English never fails and keeps the text as it is. Only an English URL fails, and only when the text is missing or its conversion fails. On an English URL, missing text raises `AttributeError`, and a failed conversion raises exactly the error of `DecimalDegree` called with the scraper's current title. A converted value is the decimal degree of the text. |
| Scraping.LocalizeByLanguage | wegweiser/core.py:100-102 | On an `en` article URL the coordinate is converted. On a `de` or `fr` article URL it is kept as text unless the article name itself contains `en.wikipedia.org`. |
| Scraping.Elevation | wegweiser/core.py:106-107 | Without an elevation span, the previous elevation is kept. With one, the stored elevation is that span's number, and a span whose text `float()` reads always gives one. A failure is exactly `float()`'s error on that text. |
| Scraping.ScrapeUrl | wegweiser/core.py:74-107 | A successful scrape keeps the scraper's URL. When it succeeds is stated by `Scraping.ScrapeFields` and `Scraping.ScrapeSucceeds` together. |
| Scraping.Collect | wegweiser/core.py:100-107 | Storing the results keeps the scraper's URL. |
| Scraping.CollectFields | wegweiser/core.py:103-107 | Stored values: the title span's text, the numbers of both localized coordinates, and the elevation. |
| Scraping.ScrapeFields | wegweiser/core.py:74-107 | A successful scrape stores: the last title span's text; the readings of the first latitude and longitude spans; the first elevation span's number, or the previous elevation when there is none. The URL is unchanged. |
| Scraping.ScrapeSucceeds | wegweiser/core.py:74-107 | The converse of `Scraping.ScrapeFields`. A page with a title span, latitude and longitude spans whose readings succeed, and a readable or absent elevation always scrapes. The result stores exactly those values under the same URL. |
| Scraping.NewYorkScrape | tests.py:98-99 | A fresh scraper on the English New York City article, with its title span and the two rendered coordinates, stores the title, 40 + 7/60 + 23/3600 and -(74 + 21/3600), and no elevation. |
| Scraping.EnglishReading | wegweiser/core.py:100-105 | On an English article, a coordinate's reading is its decimal degree. |
| Scraping.ScrapeElevation | wegweiser/core.py:106-107 | A stored elevation is the parsed text of the first elevation span, or the previous elevation when the page has none. |
| Scraping.StaleTitleWarning | wegweiser/core.py:100-117 | On an English article, a fresh scraper whose latitude text is not three or four tokens raises the geographic-spot warning naming `None`, even when the page has a title span. |
| Scraping.MissingCoordinates | wegweiser/core.py:98-99 | A page missing a latitude or a longitude span fails. With a title span, the error is the `UserWarning` naming that title. Without one, it is `UnboundLocalError`. |
| Scraping.NoElevation | wegweiser/core.py:106-107 | A fresh scraper on a page without an elevation span stores no elevation. |
| Scraping.TitleIrrelevant | wegweiser/core.py:100-107 | A successful scrape does not depend on what the scraper held before, except for the elevation when the page has none. |
| Scraping.CollectPrevious | wegweiser/core.py:103-107 | Storing depends on the earlier state only through the URL and the fallback elevation. |
| Scraping.LocalizeTitle | wegweiser/core.py:100-102 | A successful conversion does not depend on the earlier title. |
| Scraping.ElevationPrevious | wegweiser/core.py:106-107 | The previous elevation matters only when the page has no elevation span. |
| Scraping.ScrapeIdempotent | wegweiser/core.py:74-107 | Scraping the same page again gives the same result. |
| Scraping.ScrapeErrors | wegweiser/core.py:74-124 | A scrape fails only in these ways: the unbound title, the geographic-spot warning, a failing `float()`/`int()`, `float(None)`, or `None.replace`. It never raises `IndexError`. |
| Scraping.LocalizeErrors | wegweiser/core.py:100-102 | The conversion fails only with the warning, a `ValueError` or an `AttributeError`. |
| Scraping.CollectErrors | wegweiser/core.py:103-107 | Storing adds only the unbound title and the `float()` failures to the conversion's errors. |
| Spots.FromScrape | wegweiser/core.py:155-161 | `from_scrape` fails exactly when the scrape fails, with the same error. A spot carries the scraper's URL. |
| Spots.FromScrapeFields | wegweiser/core.py:155-161 | A spot holds the last title span's text, the readings of the first coordinate spans, and the elevation. |
| Spots.FromScrapeCopies | wegweiser/core.py:159-160 | The spot's fields are exactly what the scraper stored. |
| Spots.FromSearch | wegweiser/core.py:163-171 | An empty candidate list raises `IndexError`. A spot carries the URL of the first candidate. |
| Spots.FromFreshSearch | wegweiser/core.py:163-171 | A new search yields the spot of the first reply item, scraped by a new scraper. A reply item with an unacceptable URL raises `ValueError`. |
| Spots.FromSearchIndexError | wegweiser/core.py:167-171 | `from_search` raises `IndexError` exactly when there are no candidates. |
| Cli.ResolveToken | wegweiser/__wegweiser__.py:115-124 | Every argument that matches the `https` pattern is refused with a `ValueError` naming it, because the scraper admits only `http`. Every other argument, `http` article URLs included, is searched as a term. A spot found this way carries the URL of the first search result. |
| Cli.SearchToken | wegweiser/__wegweiser__.py:119-124 | No `IndexError` leaves the search branch. A spot is found only for a valid search with at least one result, and it carries the URL of the first result. |
| Cli.NoSearchResultsWarning | wegweiser/__wegweiser__.py:121-124 | The "no search results" `UserWarning` is raised exactly when the search is valid and the server offers no candidate. |
| Cli.UrlTokenRefused | wegweiser/__wegweiser__.py:111-118 | Every argument classified as a URL is refused by the scraper with `ValueError`. |
| Cli.HttpUrlSearched | wegweiser/__wegweiser__.py:111-122 | An `http` article URL, the only form the scraper accepts, is searched as a term. |
| Cli.ResolveTokenFixed | wegweiser/__wegweiser__.py:115-124 | With the scraper's own `http` pattern, an article URL is scraped by a fresh scraper and a spot found keeps that URL. An `https` argument is searched as a term. On every other argument it agrees with the code as written. |
| Cli.UrlTokenScraped | wegweiser/__wegweiser__.py:116-118 | With the scraper's pattern, an article URL is scraped by a new scraper, and the spot carries that URL. |
| Cli.FixedAgreesOnTerms | wegweiser/__wegweiser__.py:119-124 | Both classifications treat every non-URL argument the same way. |
| Cli.GetSpots | wegweiser/__wegweiser__.py:110-126 | There is one spot per argument, in order, when every argument resolves. Otherwise the run fails with the error of the first argument that fails. |
| Cli.GetSpotsFixed | wegweiser/__wegweiser__.py:110-126 | As `GetSpots` with the corrected classification. The spot of every URL argument carries that URL. |
| Cli.Gather | wegweiser/__wegweiser__.py:114-126 | The loop stops at the first failing argument and otherwise collects every result in order. |
| Cli.Entry | wegweiser/__wegweiser__.py:132-138 | Every JSON entry has exactly the five keys. |
| Cli.EntryRoundTrip | wegweiser/__wegweiser__.py:132-138 | An entry loses nothing: reading it back gives the spot. |
| Cli.GenerateJson | wegweiser/__wegweiser__.py:129-139 | There is one five-key entry per spot, in order, and each entry reads back as its spot. |
| MapPlan.SplitSize | wegweiser/__wegweiser__.py:162-164 | A size without exactly one `x` is a `ValueError`. Otherwise width and height are `int()` of the two halves, and every failure is a `ValueError`. Two halves that `int()` accepts always give a size. |
| MapPlan.SizeRoundTrip | wegweiser/__wegweiser__.py:162-164 | `str(w) + 'x' + str(h)` reads back as `(w, h)`. |
| MapPlan.DefaultSize | wegweiser/__wegweiser__.py:93-97 | The default size `640x400` is 640 by 400. |
| MapPlan.GenerateMap | wegweiser/__wegweiser__.py:158-179 | See the list below the table. |
| MapPlan.LabelAll | wegweiser/__wegweiser__.py:178-179 | Each spot gets a marker labelled with its position's letter. The 27th spot raises `IndexError`. |
| MapPlan.Vertices | wegweiser/__wegweiser__.py:168-170 | There is one path vertex per spot, in order. |
| MapPlan.Ring | wegweiser/__wegweiser__.py:171-176 | The region ring visits every spot and returns to the first one. No spots means no ring. |
| MapPlan.PathThenRing | wegweiser/__wegweiser__.py:167-176 | With both path and region there are 2n + 1 vertices, and the path's start, the ring's start and the final vertex are all the first spot. |
| Text.ReplaceCharLength | wegweiser/core.py:110 | `replace(c, r)` changes the length by `len(r) - 1` per occurrence. |
| Text.ReplaceCharAppend | wegweiser/core.py:110 | `replace` works piecewise across a concatenation. |
| Text.Split | wegweiser/core.py:111 | `split()` yields only non-empty words without whitespace. |
| Text.SplitAppend | wegweiser/core.py:111 | `split()` of two texts joined by whitespace is the concatenation of their splits. |
| Text.SplitWord | wegweiser/core.py:111 | A word without whitespace splits into itself. |
| Text.SplitSpaces | wegweiser/core.py:111 | Whitespace alone splits into nothing. |
| Text.SplitOn | wegweiser/__wegweiser__.py:162 | `split('x')` yields one piece more than the text has separators, and no piece contains a separator. |
| Text.SplitOnJoin | wegweiser/__wegweiser__.py:162 | Joining the pieces with the separator gives the text back. |
| Text.JoinSplitOn | wegweiser/__wegweiser__.py:162 | Splitting separator-free pieces joined by the separator gives the pieces back. |
| Text.ContainsAt | wegweiser/core.py:100 | The substring test holds exactly when the substring occurs at some index. |
| Text.StripSlice | wegweiser/core.py:104-105 | `strip()` removes a whitespace prefix and suffix and nothing else. |
| Text.StripTrimmed | wegweiser/core.py:104-105 | Text without whitespace at either end is left as it is by `strip()`. |

`MapPlan.GenerateMap` states what `generate_map` lays out:

- A bad size fails first, with the size's error.
- After that, the map fails exactly when it must label more than 26 spots,
  that is with path, or without region. The error is an `IndexError` on
  `labels[26]`.
- With `path`, spot i has marker letter i and path vertex i.
- Without `region`, spot i also has marker letter i, after the path
  markers.
- With `region`, the path ends with every spot and then the first spot
  again.

## Left out

- The network (`urllib2`, the user agent): replaced by the `Spots.Web`
  parameter.
- ElementTree parsing of the open-search XML and of the article HTML: a
  reply is the item sequence and a page is the span sequence.
- An open-search item without a `Text` or `Url` child (`None.text`): every
  item is modelled with both strings.
- `markup.py` and `map.py`: the map is reduced to its size, type, region
  flag, markers and path points. `generate_markup` (KML) and the map
  service's URL and image are not modelled.
- `str()` of the coordinates handed to `add_path_latlon`: path points hold
  the numbers themselves.
- `argparse`, `run`, the `json.dumps` formatting with `sort_keys`/`indent`,
  printing, and writing files: output only.
- The `isinstance` checks of `from_scrape`/`from_search`: the types rule out
  the wrong argument.
- The `Spot()` constructor with all fields `None`: spots are built only
  from scrapes, so their URL is always a string.
- The state a Python object keeps after a failure: a scraper whose title
  was stored before `float()` failed, or search results appended before the
  scrape failed. On failure the model returns only the error.
- Numbers.ParseFloat: decimal text only. There is no `inf`/`nan`, no
  non-ASCII digits, and no IEEE-754 rounding; values are exact reals.
  It strips the same `Text.IsSpace` set as `Numbers.ParseInt`, with the
  same difference from Python 2 byte strings.
- Numbers.ParseInt: ASCII decimal digits with an optional sign and
  surrounding whitespace only. No base prefixes or non-ASCII digits. The
  whitespace stripped is `Text.IsSpace`, which also holds `\x1c`-`\x1f`,
  `\x85` and `\xa0`. Python 2 `int()` and `float()` of a byte string
  strip only ASCII whitespace, so the model accepts a few more inputs.
  Python 2 `int()` may also allow whitespace between the sign and the
  digits (`- 40`), which `float()` refuses. The model's integer reader
  refuses it, so `Numbers.ParseFloatOfInt` holds for the model's readers
  and may not hold for Python 2 on such text.
- Degrees.WithinOneDegree: requires minutes of at most 59, not below 60.
  With 59.5 minutes and 59.9 seconds the value reaches past the next
  degree.
- Searching.EscapeRoundTrip: only for terms without `%`. A term that already
  contains `%20` cannot be told apart from an escaped space.

## Findings

| source | as written | input that shows it | evidently intended | confidence | as-written member | corrected member |
|---|---|---|---|---|---|---|
| wegweiser/__wegweiser__.py:111-118 | The front end treats an argument as an article URL when it matches `^https://…`. The scraper (wegweiser/core.py:65) accepts only `^http://…`. | `https://en.wikipedia.org/wiki/New_York_City` is classified as a URL, and `Scrape` refuses it with `ValueError`. `http://en.wikipedia.org/wiki/New_York_City` is searched as a term instead of being scraped. | Arguments the front end treats as URLs are ones the scraper accepts, so a URL argument is scraped. | high; not executed | Cli.UrlTokenRefused | Cli.UrlTokenScraped |

=== FILE: cli.dfy ===
/** The command-line front end: each argument is classified as an article
    URL or a search term and turned into a spot, and the spots become JSON
    entries. */
module Cli {
  import opened Wrappers
  import opened Errors
  import opened Numbers
  import opened WikiUrl
  import opened Searching
  import opened Scraping
  import opened Spots

  /** The body of the `get_spots` loop for one argument: a token matching
      the `https` article pattern goes to the scraper, anything else is
      searched in the chosen language. Since the scraper accepts only
      `http`, every token taken for a URL is refused with `ValueError`, an
      `http` article URL is searched as a term, and every spot comes from a
      search. */
  function ResolveToken(token: string, language: string, web: Web, readers: Readers): (r: Outcome<Spot>)
    ensures Matches(token, "https") ==> r == Err(InvalidUrl(token)) && Class(r.error) == ValueError
    ensures !Matches(token, "https") ==> r == SearchToken(token, language, web, readers)
    ensures Matches(token, "http") ==> r == SearchToken(token, language, web, readers)
    ensures r.Ok? ==> !Matches(token, "https") && NewSearch(token, language).Ok?
                      && var results := SearchTerm(NewSearch(token, language).value, web.opensearch).results;
                         results != [] && r.value.url == results[0].url
  {
    if Matches(token, "https") then
      HttpsRejected(token);
      SchemesDisjoint(token);
      match NewScrape(token)
      case Err(e) => Err(e)
      case Ok(scrape) => FromScrape(scrape, web, readers)
    else
      SearchToken(token, language, web, readers)
  }

  /** A search-term argument: `Spot.from_search(Search(token, language))`,
      where the `IndexError` of an empty result list becomes the "no search
      results" warning naming the token. A spot is the first candidate's. */
  function SearchToken(token: string, language: string, web: Web, readers: Readers): (r: Outcome<Spot>)
    ensures r.Err? ==> Class(r.error) != IndexError
    ensures r.Ok? ==> NewSearch(token, language).Ok?
                      && var results := SearchTerm(NewSearch(token, language).value, web.opensearch).results;
                         results != [] && r.value.url == results[0].url
  {
    var search :- NewSearch(token, language);
    var spot := FromSearch(search, web, readers);
    if spot.Err? && Class(spot.error) == IndexError then Err(NoSearchResults(token)) else spot
  }

  /** A search-term argument fails with the "no search results" warning
      exactly when the search is valid and the server offers no candidate. */
  lemma {:induction false} NoSearchResultsWarning(token: string, language: string, web: Web, readers: Readers)
    ensures SearchToken(token, language, web, readers) == Err(NoSearchResults(token))
        <==> NewSearch(token, language).Ok?
             && web.opensearch(QueryUrl(NewSearch(token, language).value)) == []
    ensures Class(NoSearchResults(token)) == UserWarning
  {
    var search := NewSearch(token, language);
    if search.Ok? {
      assert SearchTerm(search.value, web.opensearch).results == web.opensearch(QueryUrl(search.value));
      SearchTokenFound(token, language, web, readers, search.value, FromSearch(search.value, web, readers));
      if FromSearch(search.value, web, readers).Err? {
        FromSearchIndexError(search.value, web, readers);
      }
    }
  }

  /** `SearchToken` once the search is built: the outcome of `from_search`
      with its `IndexError` renamed. */
  lemma SearchTokenFound(token: string, language: string, web: Web, readers: Readers, search: Search, spot: Outcome<Spot>)
    requires NewSearch(token, language) == Ok(search) && FromSearch(search, web, readers) == spot
    ensures SearchToken(token, language, web, readers)
         == if spot.Err? && Class(spot.error) == IndexError then Err(NoSearchResults(token)) else spot
  {
  }

  /** Every argument the front end classifies as an article URL is refused
      by the scraper, which accepts only `http`: the scrape never starts. */
  lemma UrlTokenRefused(token: string, language: string, web: Web, readers: Readers)
    requires Matches(token, "https")
    ensures ResolveToken(token, language, web, readers) == Err(InvalidUrl(token))
    ensures Class(InvalidUrl(token)) == ValueError
  {
    HttpsRejected(token);
  }

  /** An `http` article URL, the one form the scraper accepts, is searched
      for as a term instead of being scraped. */
  lemma HttpUrlSearched(token: string, language: string, web: Web, readers: Readers)
    requires Matches(token, "http")
    ensures ResolveToken(token, language, web, readers) == SearchToken(token, language, web, readers)
  {
    if Matches(token, "https") {
      SchemesDisjoint(token);
    }
  }

  /** The classification with the scraper's own pattern: every article URL
      is scraped by a fresh scraper and its spot carries that URL; an
      `https` URL is searched as a term; on every other argument it agrees
      with the front end as written. */
  function ResolveTokenFixed(token: string, language: string, web: Web, readers: Readers): (r: Outcome<Spot>)
    ensures Matches(token, "http") ==> r == FromScrape(Scrape(token, None, None, None, None), web, readers)
    ensures Matches(token, "http") && r.Ok? ==> r.value.url == token
    ensures Matches(token, "https") ==> r == SearchToken(token, language, web, readers)
    ensures !Matches(token, "http") && !Matches(token, "https") ==> r == ResolveToken(token, language, web, readers)
  {
    if Matches(token, "http") then
      HttpNotHttps(token);
      match NewScrape(token)
      case Err(e) => Err(e)
      case Ok(scrape) => FromScrape(scrape, web, readers)
    else
      SearchToken(token, language, web, readers)
  }

  /** With the scraper's pattern, an article URL is scraped by a fresh
      scraper, and the resulting spot carries that URL. */
  lemma UrlTokenScraped(token: string, language: string, web: Web, readers: Readers)
    requires Matches(token, "http")
    ensures NewScrape(token).Ok?
    ensures ResolveTokenFixed(token, language, web, readers) == FromScrape(NewScrape(token).value, web, readers)
    ensures ResolveTokenFixed(token, language, web, readers).Ok? ==> ResolveTokenFixed(token, language, web, readers).value.url == token
  {
  }

  /** The two classifications agree on every argument that is no article
      URL of either scheme. */
  lemma FixedAgreesOnTerms(token: string, language: string, web: Web, readers: Readers)
    requires !Matches(token, "http") && !Matches(token, "https")
    ensures ResolveTokenFixed(token, language, web, readers) == ResolveToken(token, language, web, readers)
  {
  }

  /** `get_spots`: one spot per argument, in order; the first argument that
      fails ends the run with its error. */
  method GetSpots(tokens: seq<string>, language: string, web: Web, readers: Readers) returns (r: Outcome<seq<Spot>>)
    ensures r.Ok? <==> forall i :: 0 <= i < |tokens| ==> ResolveToken(tokens[i], language, web, readers).Ok?
    ensures r.Ok? ==> |r.value| == |tokens|
    ensures r.Ok? ==> forall i :: 0 <= i < |tokens| ==> ResolveToken(tokens[i], language, web, readers) == Ok(r.value[i])
    ensures r.Err? ==> exists k :: 0 <= k < |tokens| && ResolveToken(tokens[k], language, web, readers) == Err(r.error)
                          && forall i :: 0 <= i < k ==> ResolveToken(tokens[i], language, web, readers).Ok?
  {
    r := Gather(tokens, token => ResolveToken(token, language, web, readers));
  }

  /** `get_spots` with the classification that agrees with the scraper:
      every article URL argument is scraped, every other one searched. */
  method GetSpotsFixed(tokens: seq<string>, language: string, web: Web, readers: Readers) returns (r: Outcome<seq<Spot>>)
    ensures r.Ok? <==> forall i :: 0 <= i < |tokens| ==> ResolveTokenFixed(tokens[i], language, web, readers).Ok?
    ensures r.Ok? ==> |r.value| == |tokens|
    ensures r.Ok? ==> forall i :: 0 <= i < |tokens| ==> ResolveTokenFixed(tokens[i], language, web, readers) == Ok(r.value[i])
    ensures r.Ok? ==> forall i :: 0 <= i < |tokens| && Matches(tokens[i], "http") ==> r.value[i].url == tokens[i]
    ensures r.Err? ==> exists k :: 0 <= k < |tokens| && ResolveTokenFixed(tokens[k], language, web, readers) == Err(r.error)
                          && forall i :: 0 <= i < k ==> ResolveTokenFixed(tokens[i], language, web, readers).Ok?
  {
    r := Gather(tokens, token => ResolveTokenFixed(token, language, web, readers));
    if r.Ok? {
      forall i | 0 <= i < |tokens| && Matches(tokens[i], "http")
        ensures r.value[i].url == tokens[i]
      {
        UrlTokenScraped(tokens[i], language, web, readers);
      }
    }
  }

  /** The loop of `get_spots` for any way of resolving one argument. */
  method Gather(tokens: seq<string>, resolve: string -> Outcome<Spot>) returns (r: Outcome<seq<Spot>>)
    ensures r.Ok? <==> forall i :: 0 <= i < |tokens| ==> resolve(tokens[i]).Ok?
    ensures r.Ok? ==> |r.value| == |tokens|
    ensures r.Ok? ==> forall i :: 0 <= i < |tokens| ==> resolve(tokens[i]) == Ok(r.value[i])
    ensures r.Err? ==> exists k :: 0 <= k < |tokens| && resolve(tokens[k]) == Err(r.error)
                          && forall i :: 0 <= i < k ==> resolve(tokens[i]).Ok?
  {
    var spots: seq<Spot> := [];
    for k := 0 to |tokens|
      invariant |spots| == k
      invariant forall i :: 0 <= i < k ==> resolve(tokens[i]) == Ok(spots[i])
    {
      var spot := resolve(tokens[k]);
      if spot.Err? {
        return Err(spot.error);
      }
      spots := spots + [spot.value];
    }
    return Ok(spots);
  }

  /** The JSON values an entry holds. */
  datatype Json = JString(text: string) | JNumber(number: real) | JNull

  /** `None` becomes `null`. */
  function StringOrNull(o: Option<string>): Json
  {
    if o.Some? then JString(o.value) else JNull
  }

  function NumberOrNull(o: Option<real>): Json
  {
    if o.Some? then JNumber(o.value) else JNull
  }

  /** The five keys of every entry. */
  const EntryKeys: set<string> := {"title", "url", "latitude", "longitude", "elevation"}

  /** One `generate_json` entry: the spot's five fields under their names. */
  function Entry(spot: Spot): (e: map<string, Json>)
    ensures e.Keys == EntryKeys
  {
    map["title" := StringOrNull(spot.title), "url" := JString(spot.url),
        "latitude" := NumberOrNull(spot.latitude), "longitude" := NumberOrNull(spot.longitude),
        "elevation" := NumberOrNull(spot.elevation)]
  }

  /** Reading a JSON value back as an optional string or number. */
  function AsString(j: Json): Option<Option<string>>
  {
    match j
    case JString(t) => Some(Some(t))
    case JNull => Some(None)
    case JNumber(_) => None
  }

  function AsNumber(j: Json): Option<Option<real>>
  {
    match j
    case JNumber(x) => Some(Some(x))
    case JNull => Some(None)
    case JString(_) => None
  }

  /** A reader of entries: the spot an entry describes, if it is one. */
  function SpotOf(e: map<string, Json>): Option<Spot>
  {
    if EntryKeys <= e.Keys then
      var title :- AsString(e["title"]);
      var url :- AsString(e["url"]);
      var latitude :- AsNumber(e["latitude"]);
      var longitude :- AsNumber(e["longitude"]);
      var elevation :- AsNumber(e["elevation"]);
      if url.Some? then Some(Spot(title, url.value, latitude, longitude, elevation)) else None
    else None
  }

  /** An entry holds everything of its spot: reading it back gives the spot. */
  lemma EntryRoundTrip(spot: Spot)
    ensures SpotOf(Entry(spot)) == Some(spot)
  {
  }

  /** `generate_json` without the serialisation: one entry per spot, in
      order. */
  method GenerateJson(spots: seq<Spot>) returns (entries: seq<map<string, Json>>)
    ensures |entries| == |spots|
    ensures forall i :: 0 <= i < |spots| ==> entries[i].Keys == EntryKeys && SpotOf(entries[i]) == Some(spots[i])
  {
    entries := [];
    for k := 0 to |spots|
      invariant |entries| == k
      invariant forall i :: 0 <= i < k ==> entries[i].Keys == EntryKeys && SpotOf(entries[i]) == Some(spots[i])
    {
      var entry := Entry(spots[k]);
      EntryRoundTrip(spots[k]);
      entries := entries + [entry];
    }
  }
}

=== FILE: degrees.dfy ===
/** Conversion of degree/minute/second text with a compass letter, as the
    English Wikipedia renders coordinates, into signed decimal degrees. */
module Degrees {
  import opened Wrappers
  import opened Errors
  import opened Text
  import opened Numbers

  const DegreeSign: char := '\U{B0}'
  const Prime: char := '\U{2032}'
  const DoublePrime: char := '\U{2033}'

  /** The degree, minute and second glyphs replaced by spaces, then split
      on whitespace. */
  function Tokens(coordinates: string): seq<string>
  {
    Split(ReplaceChar(ReplaceChar(ReplaceChar(coordinates, DegreeSign, " "), Prime, " "), DoublePrime, " "))
  }

  /** The magnitude made negative when the orientation token mentions west
      or south. */
  function Orient(magnitude: real, orientation: string): real
  {
    if 'W' in orientation || 'S' in orientation then -magnitude else magnitude
  }

  /** wegweiser's conversion: four tokens are degree, minutes, seconds and
      orientation, three tokens are degree, minutes and orientation, and any
      other count raises the scraper's `UserWarning` naming the title.
      Operands are read in the order wegweiser's expression evaluates them:
      seconds, then minutes, then degree. */
  function DecimalDegree(coordinates: string, title: Option<string>, readers: Readers): (r: Outcome<real>)
    ensures |Tokens(coordinates)| != 3 && |Tokens(coordinates)| != 4 ==> r == Err(NoGeoSpot(title))
    ensures r.Err? ==> r.error == NoGeoSpot(title) || (r.error.NotANumber? && r.error.text in Tokens(coordinates))
  {
    FromTokens(Tokens(coordinates), title, readers)
  }

  /** The arithmetic on the tokens of a coordinate. */
  function FromTokens(tokens: seq<string>, title: Option<string>, readers: Readers): (r: Outcome<real>)
    ensures |tokens| != 3 && |tokens| != 4 ==> r == Err(NoGeoSpot(title))
    ensures r.Err? ==> r.error == NoGeoSpot(title) || (r.error.NotANumber? && r.error.text in tokens)
  {
    if |tokens| == 4 then Sexagesimal(ToFloat(readers, tokens[2]), ToFloat(readers, tokens[1]), ToInt(readers, tokens[0]), tokens[3])
    else if |tokens| == 3 then Minutes(ToFloat(readers, tokens[1]), ToInt(readers, tokens[0]), tokens[2])
    else Err(NoGeoSpot(title))
  }

  /** `((seconds / 60) + minutes) / 60 + degree`, signed, with the operands
      read in the order wegweiser's expression evaluates them: seconds,
      then minutes, then degree; the first that fails is the error. */
  function Sexagesimal(seconds: Outcome<real>, minutes: Outcome<real>, degree: Outcome<int>, orientation: string): (r: Outcome<real>)
    ensures seconds.Err? ==> r == Err(seconds.error)
    ensures seconds.Ok? && minutes.Err? ==> r == Err(minutes.error)
    ensures seconds.Ok? && minutes.Ok? && degree.Err? ==> r == Err(degree.error)
  {
    var s :- seconds;
    var m :- minutes;
    var d :- degree;
    Ok(Orient((s / 60.0 + m) / 60.0 + d as real, orientation))
  }

  /** `minutes / 60 + degree`, signed; minutes are read first. */
  function Minutes(minutes: Outcome<real>, degree: Outcome<int>, orientation: string): (r: Outcome<real>)
    ensures minutes.Err? ==> r == Err(minutes.error)
    ensures minutes.Ok? && degree.Err? ==> r == Err(degree.error)
  {
    var m :- minutes;
    var d :- degree;
    Ok(Orient(m / 60.0 + d as real, orientation))
  }

  /** The title only appears in the warning: a conversion that succeeds
      does not depend on it. */
  lemma DecimalDegreeTitle(coordinates: string, a: Option<string>, b: Option<string>, readers: Readers)
    requires DecimalDegree(coordinates, a, readers).Ok?
    ensures DecimalDegree(coordinates, b, readers) == DecimalDegree(coordinates, a, readers)
  {
  }

  /** Degree and minutes read as numbers combine to degree + minutes/60,
      signed by the orientation. */
  lemma MinutesValue(degree: int, minutes: real, orientation: string)
    ensures Minutes(Ok(minutes), Ok(degree), orientation) == Ok(Orient(degree as real + minutes / 60.0, orientation))
  {
  }

  /** Degree, minutes and seconds read as numbers combine to
      degree + minutes/60 + seconds/3600, signed by the orientation. */
  lemma SexagesimalValue(degree: int, minutes: real, seconds: real, orientation: string)
    ensures Sexagesimal(Ok(seconds), Ok(minutes), Ok(degree), orientation)
         == Ok(Orient(degree as real + minutes / 60.0 + seconds / 3600.0, orientation))
  {
  }

  /** Text free of the three glyphs and of whitespace: one token. */
  predicate Plain(token: string)
  {
    token != [] && NoSpace(token) && DegreeSign !in token && Prime !in token && DoublePrime !in token
  }

  /** A token followed by a glyph, a space and the rest of the text. */
  function Marked(token: string, glyph: char, rest: string): string
  {
    token + ([glyph] + ([' '] + rest))
  }

  /** A token followed by two spaces and the rest of the text. */
  function Spaced(token: string, rest: string): string
  {
    token + ([' '] + ([' '] + rest))
  }

  /** Degree/minute/second text as the English Wikipedia renders it,
      `40° 7′ 23″ N`. */
  function Dms(degree: string, minutes: string, seconds: string, orientation: string): string
  {
    Marked(degree, DegreeSign, Marked(minutes, Prime, Marked(seconds, DoublePrime, orientation)))
  }

  /** Rendered degree/minute/second text splits into its four parts. */
  lemma {:induction false} DmsTokens(degree: string, minutes: string, seconds: string, orientation: string)
    requires Plain(degree) && Plain(minutes) && Plain(seconds) && Plain(orientation)
    ensures Tokens(Dms(degree, minutes, seconds, orientation)) == [degree, minutes, seconds, orientation]
  {
    GlyphsReplaced(degree, minutes, seconds, orientation);
    SplitFourWords(degree, minutes, seconds, orientation);
  }

  lemma {:induction false} SplitFourWords(a: string, b: string, c: string, d: string)
    requires Plain(a) && Plain(b) && Plain(c) && Plain(d)
    ensures Split(Spaced(a, Spaced(b, Spaced(c, d)))) == [a, b, c, d]
  {
    SplitWord(d);
    SplitTwoSpaces(c, d);
    SplitTwoSpaces(b, Spaced(c, d));
    SplitTwoSpaces(a, Spaced(b, Spaced(c, d)));
  }

  lemma {:induction false} SplitTwoSpaces(word: string, rest: string)
    requires word != [] && NoSpace(word)
    ensures Split(Spaced(word, rest)) == [word] + Split(rest)
  {
    assert Spaced(word, rest) == (word + [' ']) + ([' '] + rest);
    SplitAppend(word, ' ', [' '] + rest);
    SplitWord(word);
    SplitLeadingSpace(' ', rest);
  }

  /** The three glyphs each become a space. */
  lemma {:induction false} GlyphsReplaced(degree: string, minutes: string, seconds: string, orientation: string)
    requires Plain(degree) && Plain(minutes) && Plain(seconds) && Plain(orientation)
    ensures ReplaceChar(ReplaceChar(ReplaceChar(Dms(degree, minutes, seconds, orientation), DegreeSign, " "), Prime, " "), DoublePrime, " ")
         == Spaced(degree, Spaced(minutes, Spaced(seconds, orientation)))
  {
    var t3 := Marked(seconds, DoublePrime, orientation);
    var t2 := Marked(minutes, Prime, t3);
    var u1 := Spaced(degree, t2);
    var u2 := Spaced(degree, Spaced(minutes, t3));
    // the degree sign
    MarkReplaced(seconds, DoublePrime, orientation, DegreeSign);
    assert ReplaceChar(t3, DegreeSign, " ") == t3;
    MarkReplaced(minutes, Prime, t3, DegreeSign);
    assert ReplaceChar(t2, DegreeSign, " ") == t2;
    MarkReplaced(degree, DegreeSign, t2, DegreeSign);
    assert ReplaceChar(Dms(degree, minutes, seconds, orientation), DegreeSign, " ") == u1;
    // the prime
    MarkReplaced(seconds, DoublePrime, orientation, Prime);
    assert ReplaceChar(t3, Prime, " ") == t3;
    MarkReplaced(minutes, Prime, t3, Prime);
    SpacedReplaced(degree, t2, Prime);
    assert ReplaceChar(u1, Prime, " ") == u2;
    // the double prime
    MarkReplaced(seconds, DoublePrime, orientation, DoublePrime);
    SpacedReplaced(minutes, t3, DoublePrime);
    SpacedReplaced(degree, Spaced(minutes, t3), DoublePrime);
  }

  /** Replacing a character that is not in the token by a space: the glyph
      after the token becomes a space when it is that character, and the
      rest is replaced on its own. */
  lemma {:induction false} MarkReplaced(token: string, glyph: char, rest: string, c: char)
    requires c !in token && c != ' '
    ensures ReplaceChar(Marked(token, glyph, rest), c, " ")
         == if c == glyph then Spaced(token, ReplaceChar(rest, c, " ")) else Marked(token, glyph, ReplaceChar(rest, c, " "))
  {
    ReplaceCharAppend(token, [glyph] + ([' '] + rest), c, " ");
    ReplaceCharAppend([glyph], [' '] + rest, c, " ");
    ReplaceCharAppend([' '], rest, c, " ");
    ReplaceSingle(glyph, c, " ");
    ReplaceSingle(' ', c, " ");
  }

  /** Replacing a character that is in neither the token nor the spaces
      touches only the rest. */
  lemma {:induction false} SpacedReplaced(token: string, rest: string, c: char)
    requires c !in token && c != ' '
    ensures ReplaceChar(Spaced(token, rest), c, " ") == Spaced(token, ReplaceChar(rest, c, " "))
  {
    ReplaceCharAppend(token, [' '] + ([' '] + rest), c, " ");
    ReplaceCharAppend([' '], [' '] + rest, c, " ");
    ReplaceCharAppend([' '], rest, c, " ");
    ReplaceSingle(' ', c, " ");
  }

  /** Four tokens read as numbers give degree + minutes/60 + seconds/3600,
      signed by the orientation. */
  lemma {:induction false} FourTokenValue(coordinates: string, title: Option<string>, readers: Readers,
                                          degree: int, minutes: real, seconds: real, orientation: string)
    requires var t := Tokens(coordinates);
      && |t| == 4 && ToInt(readers, t[0]) == Ok(degree) && ToFloat(readers, t[1]) == Ok(minutes) && ToFloat(readers, t[2]) == Ok(seconds)
      && t[3] == orientation
    ensures DecimalDegree(coordinates, title, readers)
         == Ok(Orient(degree as real + minutes / 60.0 + seconds / 3600.0, orientation))
  {
    SexagesimalValue(degree, minutes, seconds, orientation);
  }

  /** Three tokens read as numbers give degree + minutes/60, signed by the
      orientation. */
  lemma {:induction false} ThreeTokenValue(coordinates: string, title: Option<string>, readers: Readers,
                                           degree: int, minutes: real, orientation: string)
    requires var t := Tokens(coordinates);
      |t| == 3 && ToInt(readers, t[0]) == Ok(degree) && ToFloat(readers, t[1]) == Ok(minutes) && t[2] == orientation
    ensures DecimalDegree(coordinates, title, readers) == Ok(Orient(degree as real + minutes / 60.0, orientation))
  {
    MinutesValue(degree, minutes, orientation);
  }

  /** A malformed number in any numeric position makes the conversion raise
      `ValueError` naming the first malformed token in the order the
      expression reads them: seconds, then minutes, then degree. */
  lemma {:induction false} UnreadableToken(coordinates: string, title: Option<string>, readers: Readers)
    requires var t := Tokens(coordinates);
      (|t| == 4 && (ToFloat(readers, t[2]).Err? || ToFloat(readers, t[1]).Err? || ToInt(readers, t[0]).Err?))
      || (|t| == 3 && (ToFloat(readers, t[1]).Err? || ToInt(readers, t[0]).Err?))
    ensures var r := DecimalDegree(coordinates, title, readers);
      r.Err? && Class(r.error) == ValueError && r.error.NotANumber? && r.error.text in Tokens(coordinates)
    ensures var t, r := Tokens(coordinates), DecimalDegree(coordinates, title, readers);
      && (|t| == 4 && ToFloat(readers, t[2]).Err? ==> r == Err(NotANumber(t[2])))
      && (|t| == 4 && ToFloat(readers, t[2]).Ok? && ToFloat(readers, t[1]).Err? ==> r == Err(NotANumber(t[1])))
      && (|t| == 4 && ToFloat(readers, t[2]).Ok? && ToFloat(readers, t[1]).Ok? ==> r == Err(NotANumber(t[0])))
      && (|t| == 3 && ToFloat(readers, t[1]).Err? ==> r == Err(NotANumber(t[1])))
      && (|t| == 3 && ToFloat(readers, t[1]).Ok? ==> r == Err(NotANumber(t[0])))
  {
  }

  /** For at most 59 minutes and seconds below 60, the value lies within
      one degree of the degree token, on the side the orientation names. */
  lemma {:induction false} WithinOneDegree(degree: string, minutes: string, seconds: string, orientation: string, title: Option<string>, readers: Readers,
                                           d: int, m: real, s: real)
    requires Plain(degree) && Plain(minutes) && Plain(seconds) && Plain(orientation)
    requires ToInt(readers, degree) == Ok(d) && ToFloat(readers, minutes) == Ok(m) && ToFloat(readers, seconds) == Ok(s)
    requires 0.0 <= m <= 59.0 && 0.0 <= s < 60.0
    ensures var r := DecimalDegree(Dms(degree, minutes, seconds, orientation), title, readers);
      && r.Ok?
      && (if 'W' in orientation || 'S' in orientation then -(d as real + 1.0) < r.value <= -(d as real)
          else d as real <= r.value < d as real + 1.0)
  {
    DmsValue(degree, minutes, seconds, orientation, title, readers, d, m, s);
    OrientBound(d, m, s, orientation);
  }

  lemma OrientBound(d: int, m: real, s: real, orientation: string)
    requires 0.0 <= m <= 59.0 && 0.0 <= s < 60.0
    ensures var v := Orient(d as real + m / 60.0 + s / 3600.0, orientation);
      if 'W' in orientation || 'S' in orientation then -(d as real + 1.0) < v <= -(d as real)
      else d as real <= v < d as real + 1.0
  {
  }

  /** The two coordinates of New York City as the English Wikipedia
      renders them. */
  lemma {:induction false} NewYorkCity(title: Option<string>)
    ensures DecimalDegree("40\U{B0} 7\U{2032} 23\U{2033} N", title, Python) == Ok(40.0 + 7.0 / 60.0 + 23.0 / 3600.0)
    ensures DecimalDegree("74\U{B0} 0\U{2032} 21\U{2033} W", title, Python) == Ok(-(74.0 + 0.0 / 60.0 + 21.0 / 3600.0))
  {
    NewYorkText();
    OrientCompass(40.0 + 7.0 / 60.0 + 23.0 / 3600.0);
    OrientCompass(74.0 + 0.0 / 60.0 + 21.0 / 3600.0);
    Coordinate(40, 7, 23, "N", title);
    Coordinate(74, 0, 21, "W", title);
  }

  lemma NewYorkText()
    ensures "40\U{B0} 7\U{2032} 23\U{2033} N" == Dms(NatToDecimal(40), NatToDecimal(7), NatToDecimal(23), "N")
    ensures "74\U{B0} 0\U{2032} 21\U{2033} W" == Dms(NatToDecimal(74), NatToDecimal(0), NatToDecimal(21), "W")
  {
    NewYorkDigits();
    assert "40\U{B0} 7\U{2032} 23\U{2033} N" == Dms("40", "7", "23", "N");
    assert "74\U{B0} 0\U{2032} 21\U{2033} W" == Dms("74", "0", "21", "W");
  }

  lemma NewYorkDigits()
    ensures NatToDecimal(40) == "40" && NatToDecimal(7) == "7" && NatToDecimal(23) == "23"
    ensures NatToDecimal(74) == "74" && NatToDecimal(0) == "0" && NatToDecimal(21) == "21"
  {
  }

  /** North keeps the sign, west flips it. */
  lemma OrientCompass(x: real)
    ensures Orient(x, "N") == x && Orient(x, "W") == -x
  {
  }

  /** Whole degrees, minutes and seconds written out with the glyphs are read
      back as degree + minutes/60 + seconds/3600. */
  lemma {:induction false} Coordinate(d: nat, m: nat, s: nat, orientation: string, title: Option<string>)
    requires Plain(orientation)
    ensures DecimalDegree(Dms(NatToDecimal(d), NatToDecimal(m), NatToDecimal(s), orientation), title, Python)
         == Ok(Orient(d as real + m as real / 60.0 + s as real / 3600.0, orientation))
  {
    DecimalPlain(d);
    DecimalPlain(m);
    DecimalPlain(s);
    DecimalText(d);
    DecimalText(m);
    DecimalText(s);
    DmsValue(NatToDecimal(d), NatToDecimal(m), NatToDecimal(s), orientation, title, Python, d, m as real, s as real);
  }

  /** Rendered degree/minute/second text whose parts read as numbers
      converts to degree + minutes/60 + seconds/3600, signed by the
      orientation. */
  lemma {:induction false} DmsValue(degree: string, minutes: string, seconds: string, orientation: string, title: Option<string>, readers: Readers,
                                    d: int, m: real, s: real)
    requires Plain(degree) && Plain(minutes) && Plain(seconds) && Plain(orientation)
    requires ToInt(readers, degree) == Ok(d) && ToFloat(readers, minutes) == Ok(m) && ToFloat(readers, seconds) == Ok(s)
    ensures DecimalDegree(Dms(degree, minutes, seconds, orientation), title, readers)
         == Ok(Orient(d as real + m / 60.0 + s / 3600.0, orientation))
  {
    DmsTokens(degree, minutes, seconds, orientation);
    FourTokenValue(Dms(degree, minutes, seconds, orientation), title, readers, d, m, s, orientation);
  }

  /** Decimal digits are a plain token. */
  lemma DecimalPlain(n: nat)
    ensures Plain(NatToDecimal(n))
  {
    var t := NatToDecimal(n);
    forall i | 0 <= i < |t|
      ensures !IsSpace(t[i]) && t[i] != DegreeSign && t[i] != Prime && t[i] != DoublePrime
    {
      assert IsDigit(t[i]);
    }
  }

  /** `int()` and `float()` both read the decimal rendering of a number. */
  lemma {:induction false} DecimalText(n: nat)
    ensures ToInt(Python, NatToDecimal(n)) == Ok(n)
    ensures ToFloat(Python, NatToDecimal(n)) == Ok(n as real)
  {
    ParseIntRoundTrip(n);
    ParseFloatOfDecimal(n);
    assert IntToDecimal(n) == NatToDecimal(n);
  }
}

=== FILE: errors.dfy ===
/** The exceptions the pipeline raises, each with the data its message is
    built from, and the Python exception class it is raised as. */
module Errors {
  import opened Wrappers

  /** Python exception classes that escape the modelled code. */
  datatype ExceptionClass =
    | ValueError
    | UserWarning
    | IndexError
    | UnboundLocalError
    | TypeError
    | AttributeError

  datatype Error =
      /** `Search` built with a language outside de, en, fr. */
    | InvalidLanguage(language: string)
      /** `Search` built with a limit outside `range(1, 100)`. */
    | InvalidLimit(limit: int)
      /** `Scrape` built with a URL its pattern does not match. */
    | InvalidUrl(url: string)
      /** An article without coordinates, or a coordinate with the wrong
          number of tokens; the message names the title (possibly `None`). */
    | NoGeoSpot(title: Option<string>)
      /** `results[0]` on an empty result list. */
    | EmptyResults
      /** The CLI's rewording of `EmptyResults` for one input token. */
    | NoSearchResults(term: string)
      /** `int()` or `float()` on text that is not a number. */
    | NotANumber(text: string)
      /** `float(None)`: a coordinate span without text. */
    | FloatOfNone
      /** `None.replace(...)`: an English coordinate span without text. */
    | ReplaceOnNone
      /** The local `title` was never bound: no span with `dir="auto"`. */
    | UnboundTitle
      /** The map size does not split on `x` into exactly two parts. */
    | BadSize(size: string)
      /** A marker label past `Z`. */
    | LabelIndex(index: int)

  type Outcome<T> = Result<T, Error>

  /** The Python class each error is raised as. */
  function Class(e: Error): ExceptionClass
  {
    match e
    case InvalidLanguage(_) => ValueError
    case InvalidLimit(_) => ValueError
    case InvalidUrl(_) => ValueError
    case NoGeoSpot(_) => UserWarning
    case EmptyResults => IndexError
    case NoSearchResults(_) => UserWarning
    case NotANumber(_) => ValueError
    case FloatOfNone => TypeError
    case ReplaceOnNone => AttributeError
    case UnboundTitle => UnboundLocalError
    case BadSize(_) => ValueError
    case LabelIndex(_) => IndexError
  }
}

=== FILE: mapplan.dfy ===
/** The static map of the command-line front end: the map size read from
    its `WxH` text, and the markers and the path laid out from the spots.
    The map service itself, which turns the plan into a URL or an image, is
    not modelled; the plan records what is handed to it. */
module MapPlan {
  import opened Wrappers
  import opened Errors
  import opened Text
  import opened Numbers
  import opened Spots

  /** One label letter per marker, by position. */
  const Labels: string := "ABCDEFGHIJKLMNOPQRSTUVWXYZ"

  /** A marker at a spot's coordinates with its label letter. */
  datatype Marker = Marker(latitude: Option<real>, longitude: Option<real>, letter: char)

  /** A vertex of the map's path. */
  datatype Point = Point(latitude: Option<real>, longitude: Option<real>)

  /** The map as `generate_map` configures it. */
  datatype Plan = Plan(width: int, height: int, maptype: string, region: bool,
                       markers: seq<Marker>, path: seq<Point>)

  /** `size_x, size_y = size.split('x')` and `int()` of both halves: any
      other number of pieces than two, or a half that is no integer, is a
      `ValueError`; two readable halves always give a size. */
  function SplitSize(size: string, readers: Readers): (r: Outcome<(int, int)>)
    ensures Count(size, 'x') != 1 ==> r == Err(BadSize(size))
    ensures r.Ok? ==> (Count(size, 'x') == 1
                       && readers.readInt(SplitOn(size, 'x')[0]) == Some(r.value.0)
                       && readers.readInt(SplitOn(size, 'x')[1]) == Some(r.value.1))
    ensures (Count(size, 'x') == 1 && readers.readInt(SplitOn(size, 'x')[0]).Some?
             && readers.readInt(SplitOn(size, 'x')[1]).Some?) ==> r.Ok?
    ensures r.Err? ==> Class(r.error) == ValueError
  {
    var parts := SplitOn(size, 'x');
    if |parts| != 2 then Err(BadSize(size))
    else
      var width :- ToInt(readers, parts[0]);
      var height :- ToInt(readers, parts[1]);
      Ok((width, height))
  }

  /** A size written as `str(width) + 'x' + str(height)` is read back as
      that width and height. */
  lemma {:induction false} SizeRoundTrip(width: int, height: int)
    ensures SplitSize(IntToDecimal(width) + "x" + IntToDecimal(height), Python) == Ok((width, height))
  {
    var w, h := IntToDecimal(width), IntToDecimal(height);
    NoMarkInDecimal(width);
    NoMarkInDecimal(height);
    SplitOnFirst(w, 'x', h);
    assert SplitOn(h, 'x') == [h];
    assert w + "x" + h == w + ['x'] + h;
    ParseIntRoundTrip(width);
    ParseIntRoundTrip(height);
  }

  /** Decimal text has no `x`. */
  lemma NoMarkInDecimal(i: int)
    ensures 'x' !in IntToDecimal(i)
  {
    var d := NatToDecimal(if i < 0 then -i else i);
    assert forall k :: 0 <= k < |d| ==> IsDigit(d[k]);
  }

  /** The default size `640x400`. */
  lemma DefaultSize()
    ensures SplitSize("640x400", Python) == Ok((640, 400))
  {
    DefaultSizeText();
    SizeRoundTrip(640, 400);
  }

  lemma DefaultSizeText()
    ensures IntToDecimal(640) + "x" + IntToDecimal(400) == "640x400"
  {
    assert NatToDecimal(64) == "64" && NatToDecimal(40) == "40";
  }

  /** The marker of the spot at `index`, labelled `labels[index]`. */
  function Labelled(spot: Spot, index: nat): Marker
    requires index < |Labels|
  {
    Marker(spot.latitude, spot.longitude, Labels[index])
  }

  /** The path vertex of a spot. */
  function PointOf(spot: Spot): Point
  {
    Point(spot.latitude, spot.longitude)
  }

  /** `generate_map` without the output: the size first, then with `path`
      a labelled marker and a path vertex per spot, then with `region` a
      path vertex per spot closed by the first spot again, and without
      `region` a labelled marker per spot. A 27th labelled marker fails on
      `labels[26]` with `IndexError`. */
  method GenerateMap(spots: seq<Spot>, size: string, maptype: string, path: bool, region: bool, readers: Readers)
    returns (r: Outcome<Plan>)
    ensures SplitSize(size, readers).Err? ==> r == Err(SplitSize(size, readers).error)
    ensures SplitSize(size, readers).Ok? ==> (r.Err? <==> (path || !region) && |spots| > |Labels|)
    ensures SplitSize(size, readers).Ok? && r.Err? ==> r.error == LabelIndex(|Labels|) && Class(r.error) == IndexError
    ensures r.Ok? ==> var plan, n := r.value, |spots|;
      && SplitSize(size, readers) == Ok((plan.width, plan.height))
      && plan.maptype == maptype && plan.region == region
      && |plan.markers| == (if path then n else 0) + (if region then 0 else n)
      && |plan.path| == (if path then n else 0) + (if region && n > 0 then n + 1 else 0)
    ensures r.Ok? && path ==> forall i :: 0 <= i < |spots| ==>
      i < |Labels| && r.value.markers[i] == Labelled(spots[i], i) && r.value.path[i] == PointOf(spots[i])
    ensures r.Ok? && !region ==> var base := if path then |spots| else 0;
      forall i :: 0 <= i < |spots| ==> i < |Labels| && r.value.markers[base + i] == Labelled(spots[i], i)
    ensures r.Ok? && region && spots != [] ==> var base := if path then |spots| else 0;
      && (forall i :: 0 <= i < |spots| ==> r.value.path[base + i] == PointOf(spots[i]))
      && r.value.path[base + |spots|] == PointOf(spots[0])
  {
    var dimensions := SplitSize(size, readers);
    if dimensions.Err? {
      return Err(dimensions.error);
    }
    var markers: seq<Marker> := [];
    var points: seq<Point> := [];
    if path {
      var labelled := LabelAll(spots);
      if labelled.Err? {
        return Err(labelled.error);
      }
      markers := labelled.value;
      points := Vertices(spots);
    }
    if region {
      points := points + Ring(spots);
    } else {
      var labelled := LabelAll(spots);
      if labelled.Err? {
        return Err(labelled.error);
      }
      markers := markers + labelled.value;
    }
    return Ok(Plan(dimensions.value.0, dimensions.value.1, maptype, region, markers, points));
  }

  /** One labelled marker per spot, in order; the 27th spot has no label. */
  method LabelAll(spots: seq<Spot>) returns (r: Outcome<seq<Marker>>)
    ensures r.Err? <==> |spots| > |Labels|
    ensures r.Err? ==> r.error == LabelIndex(|Labels|) && Class(r.error) == IndexError
    ensures r.Ok? ==> |r.value| == |spots|
    ensures r.Ok? ==> forall i :: 0 <= i < |spots| ==> i < |Labels| && r.value[i] == Labelled(spots[i], i)
  {
    var markers: seq<Marker> := [];
    for k := 0 to |spots|
      invariant k <= |Labels|
      invariant |markers| == k
      invariant forall i :: 0 <= i < k ==> i < |Labels| && markers[i] == Labelled(spots[i], i)
    {
      if k >= |Labels| {
        return Err(LabelIndex(k));
      }
      markers := markers + [Labelled(spots[k], k)];
    }
    return Ok(markers);
  }

  /** The path vertices of the spots, in order. */
  function Vertices(spots: seq<Spot>): (points: seq<Point>)
    ensures |points| == |spots|
    ensures forall i :: 0 <= i < |spots| ==> points[i] == PointOf(spots[i])
  {
    seq(|spots|, i requires 0 <= i < |spots| => PointOf(spots[i]))
  }

  /** The region loop: every spot's vertex, and after the last one the
      first spot's vertex again; no spots, no ring. */
  function Ring(spots: seq<Spot>): (ring: seq<Point>)
    ensures spots == [] ==> ring == []
    ensures spots != [] ==> |ring| == |spots| + 1 && ring[0] == ring[|spots|]
    ensures forall i :: 0 <= i < |spots| ==> ring[i] == PointOf(spots[i])
  {
    if spots == [] then [] else Vertices(spots) + [PointOf(spots[0])]
  }

  /** With both `path` and `region`, the path runs through every spot and
      then around the closed ring: 2n + 1 vertices, the last one the first
      spot again. */
  lemma PathThenRing(spots: seq<Spot>)
    requires spots != []
    ensures var p := Vertices(spots) + Ring(spots);
      && |p| == 2 * |spots| + 1
      && p[0] == p[|spots|] == p[2 * |spots|] == PointOf(spots[0])
  {
  }
}

=== FILE: numbers.dfy ===
/** Decimal text and numbers: Python's `str()` of an integer, and `int()` /
    `float()` of a string, with floats modelled as exact reals. */
module Numbers {
  import opened Wrappers
  import opened Text
  import opened Errors

  predicate IsDigit(c: char)
  {
    '0' <= c <= '9'
  }

  predicate AllDigits(s: string)
  {
    forall i :: 0 <= i < |s| ==> IsDigit(s[i])
  }

  function DigitValue(c: char): (d: nat)
    requires IsDigit(c)
    ensures d < 10
  {
    (c as int) - ('0' as int)
  }

  function DigitChar(d: nat): (c: char)
    requires d < 10
    ensures IsDigit(c) && DigitValue(c) == d
  {
    ('0' as int + d) as char
  }

  /** The value of a string of decimal digits, most significant first. */
  function DigitsValue(s: string): nat
    requires AllDigits(s)
  {
    if s == [] then 0 else DigitsValue(s[..|s| - 1]) * 10 + DigitValue(s[|s| - 1])
  }

  function Pow10(n: nat): (p: nat)
    ensures p >= 1
  {
    if n == 0 then 1 else 10 * Pow10(n - 1)
  }

  /** A run of `n` digits is worth less than `10^n`. */
  lemma {:induction false} DigitsValueBound(s: string)
    requires AllDigits(s)
    ensures DigitsValue(s) < Pow10(|s|)
    decreases |s|
  {
    if s != [] {
      DigitsValueBound(s[..|s| - 1]);
    }
  }

  /** `str(n)` for a natural number: no sign, no leading zero. */
  function NatToDecimal(n: nat): (s: string)
    ensures s != [] && AllDigits(s)
    ensures |s| > 1 ==> s[0] != '0'
  {
    if n < 10 then [DigitChar(n)] else NatToDecimal(n / 10) + [DigitChar(n % 10)]
  }

  /** Reading back the digits `str` writes gives the number. */
  lemma {:induction false} NatToDecimalValue(n: nat)
    ensures DigitsValue(NatToDecimal(n)) == n
  {
    if n >= 10 {
      var s := NatToDecimal(n);
      assert s[..|s| - 1] == NatToDecimal(n / 10);
      NatToDecimalValue(n / 10);
    }
  }

  /** `str(i)` for an integer. */
  function IntToDecimal(i: int): (s: string)
    ensures s != [] && IsDigit(s[|s| - 1])
    ensures s[0] == '-' <==> i < 0
  {
    if i < 0 then "-" + NatToDecimal(-i) else NatToDecimal(i)
  }

  /** A leading `+` or `-`, if any, and the rest. */
  function SplitSign(s: string): (bool, string)
  {
    if s != [] && (s[0] == '+' || s[0] == '-') then (s[0] == '-', s[1..]) else (false, s)
  }

  /** An optional sign followed by one or more decimal digits. */
  function SignedDigits(t: string): Option<int>
  {
    var (negative, digits) := SplitSign(t);
    if digits != [] && AllDigits(digits) then
      Some(if negative then -(DigitsValue(digits) as int) else DigitsValue(digits))
    else None
  }

  /** Python's `int(s)`: surrounding whitespace, an optional sign, then one
      or more decimal digits. */
  function ParseInt(s: string): Option<int>
  {
    SignedDigits(Strip(s))
  }

  /** `int(str(i)) == i`. */
  lemma {:induction false} ParseIntRoundTrip(i: int)
    ensures ParseInt(IntToDecimal(i)) == Some(i)
  {
    var s := IntToDecimal(i);
    assert !IsSpace(s[0]) && !IsSpace(s[|s| - 1]);
    StripTrimmed(s);
    SignedDigitsRoundTrip(i);
  }

  lemma {:induction false} SignedDigitsRoundTrip(i: int)
    ensures SignedDigits(IntToDecimal(i)) == Some(i)
  {
    var s := IntToDecimal(i);
    if i < 0 {
      var d := NatToDecimal(-i);
      assert s == "-" + d;
      assert SplitSign(s) == (true, d);
      NatToDecimalValue(-i);
    } else {
      assert SplitSign(s) == (false, s);
      NatToDecimalValue(i);
    }
  }

  /** `int()` accepts only text whose stripped body is a signed digit string,
      and then its value has the magnitude of those digits. */
  lemma {:induction false} ParseIntShape(s: string)
    requires ParseInt(s).Some?
    ensures var (negative, body) := SplitSign(Strip(s));
      && body != [] && AllDigits(body)
      && ParseInt(s).value == (if negative then -(DigitsValue(body) as int) else DigitsValue(body))
  {
  }

  /** `m * 10^e` for a signed exponent, one decimal place at a time. */
  function Scaled(m: real, e: int): real
    decreases if e < 0 then -e else e
  {
    if e == 0 then m
    else if e > 0 then Scaled(m * 10.0, e - 1)
    else Scaled(m / 10.0, e + 1)
  }

  /** The value of the digits after a decimal point: `0.d1d2...`. */
  function FractionValue(frac: string): real
    requires AllDigits(frac)
  {
    if frac == [] then 0.0
    else (DigitValue(frac[0]) as real + FractionValue(frac[1..])) / 10.0
  }

  /** Digits after the point are worth less than one. */
  lemma {:induction false} FractionValueBound(frac: string)
    requires AllDigits(frac)
    ensures 0.0 <= FractionValue(frac) < 1.0
  {
    if frac != [] {
      FractionValueBound(frac[1..]);
    }
  }

  /** Position of the first exponent marker `e` or `E`, or `|s|`. */
  function ExponentMark(s: string): (k: nat)
    ensures k <= |s|
  {
    if s == [] || s[0] == 'e' || s[0] == 'E' then 0 else 1 + ExponentMark(s[1..])
  }

  /** `ExponentMark` stops at the first `e` or `E`. */
  lemma {:induction false} ExponentMarkFirst(s: string)
    ensures var k := ExponentMark(s);
      && (forall i :: 0 <= i < k ==> s[i] != 'e' && s[i] != 'E')
      && (k < |s| ==> s[k] == 'e' || s[k] == 'E')
    decreases |s|
  {
    if s != [] && s[0] != 'e' && s[0] != 'E' {
      ExponentMarkFirst(s[1..]);
      var k := ExponentMark(s);
      forall i | 0 <= i < k
        ensures s[i] != 'e' && s[i] != 'E'
      {
        if i > 0 { assert s[i] == s[1..][i - 1]; }
      }
    }
  }

  /** A decimal mantissa `ddd`, `ddd.`, `.ddd` or `ddd.ddd`. */
  function ParseMantissa(m: string): Option<real>
  {
    if '.' in m then
      var i := IndexOf(m, '.');
      var whole := m[..i];
      var frac := m[i + 1..];
      if AllDigits(whole) && AllDigits(frac) && |whole| + |frac| >= 1 then
        Some(DigitsValue(whole) as real + FractionValue(frac))
      else None
    else if m != [] && AllDigits(m) then Some(DigitsValue(m) as real)
    else None
  }

  /** An unsigned float literal: mantissa, then optionally `e` or `E` and an
      exponent. */
  function ParseMagnitude(body: string): Option<real>
  {
    var k := ExponentMark(body);
    var mantissa :- ParseMantissa(body[..k]);
    if k == |body| then Some(mantissa)
    else
      var e :- SignedDigits(body[k + 1..]);
      Some(Scaled(mantissa, e))
  }

  /** Python's `float(s)` on finite decimal text: surrounding whitespace, an
      optional sign, a mantissa and an optional exponent `e[+-]ddd`. */
  function ParseFloat(s: string): Option<real>
  {
    var (negative, body) := SplitSign(Strip(s));
    var magnitude :- ParseMagnitude(body);
    Some(if negative then -magnitude else magnitude)
  }

  /** Text `int()` accepts is read by `float()` as the same number. */
  lemma {:induction false} ParseFloatOfInt(s: string)
    requires ParseInt(s).Some?
    ensures ParseFloat(s) == Some(ParseInt(s).value as real)
  {
    var (negative, body) := SplitSign(Strip(s));
    ExponentMarkDigits(body);
    assert body[..|body|] == body;
    assert '.' !in body;
  }

  lemma ExponentMarkDigits(s: string)
    requires AllDigits(s)
    ensures ExponentMark(s) == |s|
  {
    if s != [] {
      ExponentMarkDigits(s[1..]);
    }
  }

  /** `float(str(i)) == i`. */
  lemma {:induction false} ParseFloatOfDecimal(i: int)
    ensures ParseFloat(IntToDecimal(i)) == Some(i as real)
  {
    ParseIntRoundTrip(i);
    ParseFloatOfInt(IntToDecimal(i));
  }

  /** A decimal point followed by digits adds their value over `10^n`. */
  lemma {:induction false} ParseFloatFraction(whole: string, frac: string)
    requires whole != [] && AllDigits(whole) && AllDigits(frac)
    ensures ParseFloat(whole + "." + frac) == Some(DigitsValue(whole) as real + FractionValue(frac))
  {
    var s := whole + "." + frac;
    assert forall i :: 0 <= i < |s| ==> s[i] != 'e' && s[i] != 'E' by {
      forall i | 0 <= i < |s|
        ensures s[i] != 'e' && s[i] != 'E'
      {
        if i < |whole| { assert s[i] == whole[i]; }
        else if i > |whole| { assert s[i] == frac[i - |whole| - 1]; }
      }
    }
    assert IsDigit(s[0]) by { assert s[0] == whole[0]; }
    assert s[|s| - 1] == '.' || IsDigit(s[|s| - 1]);
    ParseFloatPlain(s);
    MantissaFraction(whole, frac);
  }

  /** Unsigned, unpadded text without an exponent is read as a mantissa. */
  lemma {:induction false} ParseFloatPlain(s: string)
    requires s != [] && IsDigit(s[0]) && (s[|s| - 1] == '.' || IsDigit(s[|s| - 1]))
    requires forall i :: 0 <= i < |s| ==> s[i] != 'e' && s[i] != 'E'
    ensures ParseFloat(s) == ParseMantissa(s)
  {
    StripTrimmed(s);
    assert SplitSign(s) == (false, s);
    ExponentMarkNone(s);
    assert s[..|s|] == s;
  }

  lemma {:induction false} MantissaFraction(whole: string, frac: string)
    requires AllDigits(whole) && AllDigits(frac) && |whole| + |frac| >= 1
    ensures ParseMantissa(whole + "." + frac) == Some(DigitsValue(whole) as real + FractionValue(frac))
  {
    var s := whole + "." + frac;
    assert s[|whole|] == '.';
    IndexOfFirst(whole, '.', frac);
    var i := IndexOf(s, '.');
    assert i == |whole|;
    assert s[..i] == whole;
    assert s[i + 1..] == frac;
  }

  lemma ExponentMarkNone(s: string)
    requires forall i :: 0 <= i < |s| ==> s[i] != 'e' && s[i] != 'E'
    ensures ExponentMark(s) == |s|
  {
    if s != [] {
      ExponentMarkNone(s[1..]);
    }
  }

  /** The two string-to-number conversions the pipeline calls, as
      parameters: each either reads the text as a number or refuses it.
      `Python` holds the concrete readers of this module. */
  datatype Readers = Readers(readInt: string -> Option<int>, readFloat: string -> Option<real>)

  /** Python's `int()` and `float()` on text. */
  const Python: Readers := Readers(ParseInt, ParseFloat)

  /** `float(text)`, raising `ValueError` on text the reader refuses. */
  function ToFloat(readers: Readers, text: string): (r: Outcome<real>)
    ensures r.Ok? <==> readers.readFloat(text).Some?
    ensures r.Ok? ==> r.value == readers.readFloat(text).value
    ensures r.Err? ==> r.error == NotANumber(text) && Class(r.error) == ValueError
  {
    match readers.readFloat(text)
    case Some(v) => Ok(v)
    case None => Err(NotANumber(text))
  }

  /** `int(text)`, raising `ValueError` on text the reader refuses. */
  function ToInt(readers: Readers, text: string): (r: Outcome<int>)
    ensures r.Ok? <==> readers.readInt(text).Some?
    ensures r.Ok? ==> r.value == readers.readInt(text).value
    ensures r.Err? ==> r.error == NotANumber(text) && Class(r.error) == ValueError
  {
    match readers.readInt(text)
    case Some(v) => Ok(v)
    case None => Err(NotANumber(text))
  }
}

=== FILE: scrape.dfy ===
/** The article scraper: URL validation, and one scrape of the printable
    article page into a title and decimal coordinates. The page is the
    document-order sequence of its spans, as the server returns it for the
    printable URL. */
module Scraping {
  import opened Wrappers
  import opened Errors
  import opened Text
  import opened Numbers
  import opened WikiUrl
  import opened Spans
  import opened Degrees

  /** A scraper and what its last successful scrape stored; a fresh scraper
      holds `None` everywhere but the URL. */
  datatype Scrape = Scrape(url: string, title: Option<string>, latitude: Option<real>,
                           longitude: Option<real>, elevation: Option<real>)

  /** A coordinate local of `scrape_url`: still the span's text, or already
      a number after the English conversion. */
  datatype Value = Raw(text: Option<string>) | Number(number: real)

  /** `Scrape(url)`: accepted exactly when the `http` article pattern
      matches. */
  function NewScrape(url: string): (r: Outcome<Scrape>)
    ensures r.Ok? <==> Matches(url, "http")
    ensures r.Ok? ==> r.value == Scrape(url, None, None, None, None)
    ensures r.Err? ==> r.error == InvalidUrl(url) && Class(r.error) == ValueError
  {
    if Matches(url, "http") then Ok(Scrape(url, None, None, None, None)) else Err(InvalidUrl(url))
  }

  /** No `https` article URL is accepted. */
  lemma HttpsRejected(url: string)
    requires Matches(url, "https")
    ensures NewScrape(url) == Err(InvalidUrl(url))
  {
    SchemesDisjoint(url);
  }

  /** `URL_OPTS % url`: the printable variant of the article. */
  function PrintableUrl(url: string): string
  {
    url + "?printable=yes"
  }

  /** `float(x)`: a number stays itself, text is parsed, `None` raises
      `TypeError`. */
  function FloatOf(v: Value, readers: Readers): (r: Outcome<real>)
    ensures v.Number? ==> r == Ok(v.number)
    ensures v == Raw(None) ==> r == Err(FloatOfNone) && Class(r.error) == TypeError
    ensures v.Raw? && v.text.Some? ==> r == ToFloat(readers, v.text.value)
  {
    match v
    case Number(x) => Ok(x)
    case Raw(None) => Err(FloatOfNone)
    case Raw(Some(t)) => ToFloat(readers, t)
  }

  /** `_calculate_decimal_degree(text)`, where `None` text fails on
      `.replace` with `AttributeError`; the warning names the title the
      scraper holds when it is called. */
  function Convert(text: Option<string>, title: Option<string>, readers: Readers): (r: Outcome<Value>)
    ensures text.None? ==> r == Err(ReplaceOnNone) && Class(r.error) == AttributeError
    ensures r.Ok? ==> text.Some? && DecimalDegree(text.value, title, readers).Ok?
                      && r.value == Number(DecimalDegree(text.value, title, readers).value)
    ensures text.Some? && DecimalDegree(text.value, title, readers).Err? ==>
      r == Err(DecimalDegree(text.value, title, readers).error)
  {
    match text
    case None => Err(ReplaceOnNone)
    case Some(t) =>
      var x :- DecimalDegree(t, title, readers);
      Ok(Number(x))
  }

  /** The locale switch: English pages convert the coordinate text, the
      others keep it for `float()`. Only the conversion can fail, and a
      converted value is the decimal degree of the text. */
  function Localize(s: Scrape, text: Option<string>, readers: Readers): (r: Outcome<Value>)
    ensures !IsEnglish(s.url) ==> r.Ok?
    ensures r.Err? ==> IsEnglish(s.url) && (text.None? || DecimalDegree(text.value, s.title, readers).Err?)
    ensures r.Ok? && r.value.Raw? ==> !IsEnglish(s.url) && r.value.text == text
    ensures r.Ok? && r.value.Number? ==>
      IsEnglish(s.url) && text.Some? && DecimalDegree(text.value, s.title, readers) == Ok(r.value.number)
    ensures IsEnglish(s.url) && text.Some? && DecimalDegree(text.value, s.title, readers).Ok? ==> r.Ok?
    ensures IsEnglish(s.url) && text.None? ==> r == Err(ReplaceOnNone)
    ensures IsEnglish(s.url) && text.Some? && DecimalDegree(text.value, s.title, readers).Err? ==>
      r == Err(DecimalDegree(text.value, s.title, readers).error)
  {
    if IsEnglish(s.url) then Convert(text, s.title, readers) else Ok(Raw(text))
  }

  /** On an article URL the switch is decided by the language and the
      article name: English articles are converted, and German and French
      ones only when their name mentions `en.wikipedia.org`. */
  lemma LocalizeByLanguage(s: Scrape, lang: string, article: string, text: Option<string>, readers: Readers)
    requires lang in Languages && s.url == ArticleUrl("http", lang, article)
    ensures Localize(s, text, readers)
         == if lang == "en" || Contains(article, "en.wikipedia.org") then Convert(text, s.title, readers)
            else Ok(Raw(text))
  {
    if lang == "en" {
      EnglishHost("http", article);
    } else {
      NonEnglishHost(lang, article);
    }
  }

  /** The elevation the scrape stores: the parsed text of the first
      elevation span, or the value held before when there is none. */
  function Elevation(slot: Slot, previous: Option<real>, readers: Readers): (r: Outcome<Option<real>>)
    ensures slot.Unset? ==> r == Ok(previous)
    ensures slot.Set? && r.Ok? ==> r.value.Some? && FloatOf(Raw(slot.text), readers) == Ok(r.value.value)
    ensures slot.Set? && FloatOf(Raw(slot.text), readers).Ok? ==> r.Ok?
    ensures r.Err? ==> slot.Set? && r == Err(FloatOf(Raw(slot.text), readers).error)
  {
    match slot
    case Unset => Ok(previous)
    case Set(text) =>
      var e :- FloatOf(Raw(text), readers);
      Ok(Some(e))
  }

  /** `scrape_url` on the page the server returns for the printable URL,
      step by step: the traversal; the warning for missing coordinates
      (which itself fails when no title span bound `title`); the locale
      switch, latitude first; storing the title; `float()` of latitude and
      longitude; and the elevation. */
  function ScrapeUrl(s: Scrape, page: seq<Span>, readers: Readers): (r: Outcome<Scrape>)
    ensures r.Ok? ==> r.value.url == s.url
  {
    var t := Scan(page);
    if t.latitude.Unset? || t.longitude.Unset? then
      if t.title.Unset? then Err(UnboundTitle) else Err(NoGeoSpot(t.title.text))
    else
      Collect(s, t, Localize(s, t.latitude.text, readers), Localize(s, t.longitude.text, readers), readers)
  }

  /** The rest of `scrape_url` once both coordinates were localized:
      latitude first, then longitude, then the title, then `float()` of
      both, then the elevation. */
  function Collect(s: Scrape, t: Traversal, latitude: Outcome<Value>, longitude: Outcome<Value>, readers: Readers): (r: Outcome<Scrape>)
    ensures r.Ok? ==> r.value.url == s.url
  {
    var latitude :- latitude;
    var longitude :- longitude;
    if t.title.Unset? then Err(UnboundTitle)
    else
      var lat :- FloatOf(latitude, readers);
      var lon :- FloatOf(longitude, readers);
      var elevation :- Elevation(t.elevation, s.elevation, readers);
      Ok(Scrape(s.url, t.title.text, Some(lat), Some(lon), elevation))
  }

  /** What a successful `Collect` stores: the URL kept, the title span's
      text, the numbers of both localized coordinates, and the elevation. */
  lemma CollectFields(s: Scrape, t: Traversal, latitude: Outcome<Value>, longitude: Outcome<Value>, readers: Readers)
    requires Collect(s, t, latitude, longitude, readers).Ok?
    ensures var r := Collect(s, t, latitude, longitude, readers).value;
      && latitude.Ok? && longitude.Ok? && t.title.Set?
      && r.url == s.url && r.title == t.title.text
      && r.latitude.Some? && FloatOf(latitude.value, readers) == Ok(r.latitude.value)
      && r.longitude.Some? && FloatOf(longitude.value, readers) == Ok(r.longitude.value)
      && Elevation(t.elevation, s.elevation, readers) == Ok(r.elevation)
  {
  }

  /** The value a coordinate span's text stands for on the scraper's page. */
  function Reading(s: Scrape, text: Option<string>, readers: Readers): Outcome<real>
  {
    var v :- Localize(s, text, readers);
    FloatOf(v, readers)
  }

  /** A successful scrape stores the text of the last `dir="auto"` span as
      the title, the reading of the first latitude and the first longitude
      span, and the first elevation span's number, or keeps the elevation
      held before when the page has none; the URL is unchanged. */
  lemma {:induction false} ScrapeFields(s: Scrape, page: seq<Span>, readers: Readers)
    requires ScrapeUrl(s, page, readers).Ok?
    ensures var r := ScrapeUrl(s, page, readers).value;
      var latitude, longitude := FirstOfClass(page, "latitude"), FirstOfClass(page, "longitude");
      && LastTitle(page).Set? && latitude.Set? && longitude.Set?
      && r.url == s.url
      && r.title == LastTitle(page).text
      && r.latitude.Some? && Reading(s, latitude.text, readers) == Ok(r.latitude.value)
      && r.longitude.Some? && Reading(s, longitude.text, readers) == Ok(r.longitude.value)
      && Elevation(FirstOfClass(page, "elevation"), s.elevation, readers) == Ok(r.elevation)
  {
    var t := Scan(page);
    CollectFields(s, t, Localize(s, t.latitude.text, readers), Localize(s, t.longitude.text, readers), readers);
  }

  /** The converse of `ScrapeFields`: a page with a title span, first
      latitude and longitude spans whose readings succeed, and a readable
      elevation (or none) always scrapes, and stores exactly those values. */
  lemma {:induction false} ScrapeSucceeds(s: Scrape, page: seq<Span>, readers: Readers)
    requires LastTitle(page).Set?
    requires FirstOfClass(page, "latitude").Set? && FirstOfClass(page, "longitude").Set?
    requires Reading(s, FirstOfClass(page, "latitude").text, readers).Ok?
    requires Reading(s, FirstOfClass(page, "longitude").text, readers).Ok?
    requires Elevation(FirstOfClass(page, "elevation"), s.elevation, readers).Ok?
    ensures ScrapeUrl(s, page, readers)
         == Ok(Scrape(s.url, LastTitle(page).text,
                      Some(Reading(s, FirstOfClass(page, "latitude").text, readers).value),
                      Some(Reading(s, FirstOfClass(page, "longitude").text, readers).value),
                      Elevation(FirstOfClass(page, "elevation"), s.elevation, readers).value))
  {
  }

  /** The English New York City article as the test suite scrapes it: a
      title span and one latitude and one longitude span in degree, minute
      and second notation, and no elevation span. A fresh scraper stores the
      title and the two decimal coordinates, and no elevation. */
  lemma {:induction false} NewYorkScrape()
    ensures var url := ArticleUrl("http", "en", "New_York_City");
      var page := [Span(map["dir" := "auto"], Some("New York City")),
                   Span(map["class" := "latitude"], Some("40\U{B0} 7\U{2032} 23\U{2033} N")),
                   Span(map["class" := "longitude"], Some("74\U{B0} 0\U{2032} 21\U{2033} W"))];
      && NewScrape(url).Ok?
      && ScrapeUrl(NewScrape(url).value, page, Python)
         == Ok(Scrape(url, Some("New York City"), Some(40.0 + 7.0 / 60.0 + 23.0 / 3600.0),
                      Some(-(74.0 + 0.0 / 60.0 + 21.0 / 3600.0)), None))
  {
    var url := ArticleUrl("http", "en", "New_York_City");
    var page := [Span(map["dir" := "auto"], Some("New York City")),
                 Span(map["class" := "latitude"], Some("40\U{B0} 7\U{2032} 23\U{2033} N")),
                 Span(map["class" := "longitude"], Some("74\U{B0} 0\U{2032} 21\U{2033} W"))];
    var lat, lon := "40\U{B0} 7\U{2032} 23\U{2033} N", "74\U{B0} 0\U{2032} 21\U{2033} W";
    TestUrls();
    var s := NewScrape(url).value;
    EnglishHost("http", "New_York_City");
    NewYorkCity(None);
    NewYorkPage(page, lat, lon);
    EnglishReading(s, lat, Python, 40.0 + 7.0 / 60.0 + 23.0 / 3600.0);
    EnglishReading(s, lon, Python, -(74.0 + 0.0 / 60.0 + 21.0 / 3600.0));
    ScrapeSucceeds(s, page, Python);
  }

  /** On an English article, a coordinate text reads as its decimal degree. */
  lemma EnglishReading(s: Scrape, text: string, readers: Readers, v: real)
    requires IsEnglish(s.url) && DecimalDegree(text, s.title, readers) == Ok(v)
    ensures Reading(s, Some(text), readers) == Ok(v)
  {
  }

  /** The traversal of a page holding a title span, a latitude and a
      longitude span, in that order. */
  lemma NewYorkPage(page: seq<Span>, lat: string, lon: string)
    requires page == [Span(map["dir" := "auto"], Some("New York City")),
                      Span(map["class" := "latitude"], Some(lat)),
                      Span(map["class" := "longitude"], Some(lon))]
    ensures LastTitle(page) == Set(Some("New York City"))
    ensures FirstOfClass(page, "latitude") == Set(Some(lat))
    ensures FirstOfClass(page, "longitude") == Set(Some(lon))
    ensures FirstOfClass(page, "elevation") == Unset
  {
    assert !IsTitle(page[2]) && !IsTitle(page[1]) && IsTitle(page[0]);
    assert !HasClass(page[0], "latitude") && HasClass(page[1], "latitude");
    assert !HasClass(page[0], "longitude") && !HasClass(page[1], "longitude") && HasClass(page[2], "longitude");
    assert forall i :: 0 <= i < |page| ==> !HasClass(page[i], "elevation");
  }

  /** The elevation a successful scrape stores: the number of the first
      elevation span's text, or the elevation held before when the page has
      no elevation span. */
  lemma {:induction false} ScrapeElevation(s: Scrape, page: seq<Span>, readers: Readers)
    requires ScrapeUrl(s, page, readers).Ok?
    ensures var r := ScrapeUrl(s, page, readers).value;
      var e := FirstOfClass(page, "elevation");
      && (e.Unset? ==> r.elevation == s.elevation)
      && (e.Set? ==> e.text.Some? && r.elevation.Some? && readers.readFloat(e.text.value) == Some(r.elevation.value))
  {
    ScrapeFields(s, page, readers);
  }

  /** Without a latitude or a longitude span the scrape raises the
      "no valid geographic spot" warning naming the title, or fails on the
      unbound title when no title span exists either. */
  lemma {:induction false} MissingCoordinates(s: Scrape, page: seq<Span>, readers: Readers)
    requires FirstOfClass(page, "latitude").Unset? || FirstOfClass(page, "longitude").Unset?
    ensures ScrapeUrl(s, page, readers) == if LastTitle(page).Set? then Err(NoGeoSpot(LastTitle(page).text)) else Err(UnboundTitle)
    ensures Class(ScrapeUrl(s, page, readers).error) == (if LastTitle(page).Set? then UserWarning else UnboundLocalError)
  {
  }

  /** On an English article, a latitude that is not three or four tokens
      raises the "no valid geographic spot" warning naming the title the
      scraper held before the scrape: `None` for a fresh scraper, whatever
      title span the page has, since the new title is stored only after
      both conversions. */
  lemma {:induction false} StaleTitleWarning(url: string, page: seq<Span>, readers: Readers)
    requires NewScrape(url).Ok? && IsEnglish(url)
    requires FirstOfClass(page, "latitude").Set? && FirstOfClass(page, "longitude").Set?
    requires var text := FirstOfClass(page, "latitude").text;
      text.Some? && |Tokens(text.value)| != 3 && |Tokens(text.value)| != 4
    ensures ScrapeUrl(NewScrape(url).value, page, readers) == Err(NoGeoSpot(None))
  {
  }

  /** A page without an elevation span leaves a fresh scraper's elevation
      at `None`. */
  lemma {:induction false} NoElevation(url: string, page: seq<Span>, readers: Readers)
    requires NewScrape(url).Ok? && FirstOfClass(page, "elevation").Unset?
    requires ScrapeUrl(NewScrape(url).value, page, readers).Ok?
    ensures ScrapeUrl(NewScrape(url).value, page, readers).value.elevation == None
  {
    ScrapeElevation(NewScrape(url).value, page, readers);
  }

  /** What a scraper held before only shows in a successful scrape through
      the URL, and through the elevation when the page has none: the stored
      title only ever names the article in a warning. */
  lemma {:induction false} TitleIrrelevant(s: Scrape, s': Scrape, page: seq<Span>, readers: Readers)
    requires s.url == s'.url
    requires FirstOfClass(page, "elevation").Unset? ==> s.elevation == s'.elevation
    requires ScrapeUrl(s, page, readers).Ok?
    ensures ScrapeUrl(s', page, readers) == ScrapeUrl(s, page, readers)
  {
    var t := Scan(page);
    LocalizeTitle(s, s', t.latitude.text, readers);
    LocalizeTitle(s, s', t.longitude.text, readers);
    CollectPrevious(s, s', t, Localize(s, t.latitude.text, readers), Localize(s, t.longitude.text, readers), readers);
  }

  /** `Collect` depends on the scraper only through its URL, and through
      its elevation when the page has none. */
  lemma CollectPrevious(s: Scrape, s': Scrape, t: Traversal, latitude: Outcome<Value>, longitude: Outcome<Value>, readers: Readers)
    requires s.url == s'.url
    requires t.elevation.Unset? ==> s.elevation == s'.elevation
    ensures Collect(s', t, latitude, longitude, readers) == Collect(s, t, latitude, longitude, readers)
  {
    ElevationPrevious(t.elevation, s.elevation, s'.elevation, readers);
  }

  /** The locale switch depends on the scraper only through its URL when it
      succeeds. */
  lemma LocalizeTitle(s: Scrape, s': Scrape, text: Option<string>, readers: Readers)
    requires s.url == s'.url && Localize(s, text, readers).Ok?
    ensures Localize(s', text, readers) == Localize(s, text, readers)
  {
    if IsEnglish(s.url) {
      DecimalDegreeTitle(text.value, s.title, s'.title, readers);
    }
  }

  /** The elevation held before matters only when the page has none. */
  lemma ElevationPrevious(slot: Slot, a: Option<real>, b: Option<real>, readers: Readers)
    requires slot.Unset? ==> a == b
    ensures Elevation(slot, a, readers) == Elevation(slot, b, readers)
  {
  }

  /** Scraping the same page again changes nothing. */
  lemma {:induction false} ScrapeIdempotent(s: Scrape, page: seq<Span>, readers: Readers)
    requires ScrapeUrl(s, page, readers).Ok?
    ensures ScrapeUrl(ScrapeUrl(s, page, readers).value, page, readers) == ScrapeUrl(s, page, readers)
  {
    ScrapeFields(s, page, readers);
    ScrapeElevation(s, page, readers);
    TitleIrrelevant(s, ScrapeUrl(s, page, readers).value, page, readers);
  }

  /** A scrape never fails with `IndexError`, nor with the front end's
      "no search results" warning: its errors are the unbound title, the
      geographic-spot warning, and the failures of `float()`, `int()` and
      `.replace`. */
  lemma ScrapeErrors(s: Scrape, page: seq<Span>, readers: Readers)
    requires ScrapeUrl(s, page, readers).Err?
    ensures var e := ScrapeUrl(s, page, readers).error;
      e.UnboundTitle? || e.NoGeoSpot? || e.NotANumber? || e.FloatOfNone? || e.ReplaceOnNone?
  {
    var t := Scan(page);
    if t.latitude.Set? && t.longitude.Set? {
      LocalizeErrors(s, t.latitude.text, readers);
      LocalizeErrors(s, t.longitude.text, readers);
      CollectErrors(s, t, Localize(s, t.latitude.text, readers), Localize(s, t.longitude.text, readers), readers);
    }
  }

  lemma LocalizeErrors(s: Scrape, text: Option<string>, readers: Readers)
    ensures var r := Localize(s, text, readers);
      r.Err? ==> r.error.NoGeoSpot? || r.error.NotANumber? || r.error.ReplaceOnNone?
  {
  }

  lemma CollectErrors(s: Scrape, t: Traversal, latitude: Outcome<Value>, longitude: Outcome<Value>, readers: Readers)
    requires latitude.Err? ==> latitude.error.NoGeoSpot? || latitude.error.NotANumber? || latitude.error.ReplaceOnNone?
    requires longitude.Err? ==> longitude.error.NoGeoSpot? || longitude.error.NotANumber? || longitude.error.ReplaceOnNone?
    requires Collect(s, t, latitude, longitude, readers).Err?
    ensures var e := Collect(s, t, latitude, longitude, readers).error;
      e.UnboundTitle? || e.NoGeoSpot? || e.NotANumber? || e.FloatOfNone? || e.ReplaceOnNone?
  {
  }
}

=== FILE: search.dfy ===
/** The Wikipedia open-search client: a validated query, the query URL, and
    the accumulation of the candidate articles the server returns. The
    server's XML reply is abstracted as the document-order sequence of its
    items, each with the text of its `Text` and `Url` children. */
module Searching {
  import opened Wrappers
  import opened Errors
  import opened Text
  import opened Numbers
  import opened WikiUrl

  /** One candidate article of an open-search reply: `{'title', 'url'}`. */
  datatype Item = Item(title: string, url: string)

  /** A search query and the candidates gathered so far. */
  datatype Search = Search(term: string, language: string, limit: int, results: seq<Item>)

  /** The accepted limits, `range(1, 100)`: 1 to 99. The error message of
      wegweiser says "1-100", but 100 itself is outside the range. */
  predicate ValidLimit(limit: int)
  {
    1 <= limit < 100
  }

  /** `Search(term, language='de', limit=3)`: the language is checked first,
      then the limit; a fresh search has no results. */
  function NewSearch(term: string, language: string := "de", limit: int := 3): (r: Outcome<Search>)
    ensures r.Ok? <==> language in Languages && ValidLimit(limit)
    ensures r.Ok? ==> r.value == Search(term, language, limit, [])
    ensures language !in Languages ==> r == Err(InvalidLanguage(language))
    ensures language in Languages && !ValidLimit(limit) ==> r == Err(InvalidLimit(limit))
    ensures r.Err? ==> Class(r.error) == ValueError
  {
    if language !in Languages then Err(InvalidLanguage(language))
    else if !(1 <= limit <= 99) then Err(InvalidLimit(limit))
    else Ok(Search(term, language, limit, []))
  }

  /** The defaults are German and three results. */
  lemma DefaultSearch(term: string)
    ensures NewSearch(term) == Ok(Search(term, "de", 3, []))
  {
    assert "de" in Languages;
  }

  /** The edges of the limit range, and the values the test suite probes:
      0, 100 and the tests' -1234, -1, 101 and 356 are refused, 1, 50 and
      99 are taken, and Italian is no supported language. */
  lemma LimitEdges(term: string)
    ensures NewSearch(term, "en", 0) == Err(InvalidLimit(0))
    ensures NewSearch(term, "en", 100) == Err(InvalidLimit(100))
    ensures forall limit :: limit in [-1234, -1, 101, 356] ==> NewSearch(term, "de", limit) == Err(InvalidLimit(limit))
    ensures NewSearch(term, "en", 1).Ok? && NewSearch(term, "de", 50).Ok? && NewSearch(term, "en", 99).Ok?
    ensures NewSearch(term, "it") == Err(InvalidLanguage("it"))
    ensures NewSearch(term, "es", 100) == Err(InvalidLanguage("es"))
  {
    assert "en" in Languages && "de" in Languages;
    assert "it" !in Languages && "es" !in Languages;
  }

  /** The term as it goes into the query: every space becomes `%20`, and
      nothing else changes. */
  function Escape(term: string): (r: string)
    ensures ' ' !in r
  {
    ReplaceChar(term, ' ', "%20")
  }

  /** The inverse of `Escape`: every `%20` read back as a space. */
  function Unescape(s: string): string
  {
    if s == [] then []
    else if |s| >= 3 && s[..3] == "%20" then " " + Unescape(s[3..])
    else [s[0]] + Unescape(s[1..])
  }

  /** Terms without `%` survive escaping: the query carries the term
      exactly. */
  lemma {:induction false} EscapeRoundTrip(term: string)
    requires '%' !in term
    ensures Unescape(Escape(term)) == term
    decreases |term|
  {
    if term != [] {
      var rest := Escape(term[1..]);
      assert '%' !in term[1..] by {
        forall i | 0 <= i < |term[1..]| ensures term[1..][i] != '%' {
          assert term[1..][i] == term[i + 1];
        }
      }
      EscapeRoundTrip(term[1..]);
      if term[0] == ' ' {
        var e := "%20" + rest;
        assert Escape(term) == e;
        assert e[..3] == "%20" && e[3..] == rest;
      } else {
        var e := [term[0]] + rest;
        assert Escape(term) == e;
        assert e[0] == term[0] && term[0] != '%';
        assert e[1..] == rest;
      }
      assert term == [term[0]] + term[1..];
    }
  }

  /** Each space grows the term by two characters. */
  lemma EscapeLength(term: string)
    ensures |Escape(term)| == |term| + 2 * Count(term, ' ')
  {
    ReplaceCharLength(term, ' ', "%20");
  }

  const ApiPath: string := ".wikipedia.org/w/api.php?action=opensearch&search="
  const LimitParam: string := "&format=xml&limit="

  /** `BASE_URL % (language, term.replace(" ", "%20"), limit)`. */
  function QueryUrl(s: Search): string
  {
    "http://" + s.language + ApiPath + Escape(s.term) + LimitParam + IntToDecimal(s.limit)
  }

  /** The query URL of a valid search carries its three fields where a
      reader of the URL finds them: the language right after the scheme,
      the escaped term after `search=` (which reads back as the term when
      the term holds no `%`), and the limit as the decimal number after
      `limit=`. */
  lemma {:induction false} QueryUrlFields(s: Search)
    requires s.language in Languages
    ensures var u := QueryUrl(s);
      var termStart := 9 + |ApiPath|;
      var termEnd := |u| - |LimitParam| - |IntToDecimal(s.limit)|;
      && 0 <= termStart <= termEnd <= |u| - |LimitParam|
      && u[7..9] == s.language
      && u[termStart..termEnd] == Escape(s.term)
      && ('%' !in s.term ==> Unescape(u[termStart..termEnd]) == s.term)
      && u[termEnd..termEnd + |LimitParam|] == LimitParam
      && ParseInt(u[termEnd + |LimitParam|..]) == Some(s.limit)
  {
    var u := QueryUrl(s);
    var head := "http://" + s.language + ApiPath;
    var e := Escape(s.term);
    var d := IntToDecimal(s.limit);
    assert u == head + e + LimitParam + d;
    assert |head| == 9 + |ApiPath|;
    assert u[7..9] == s.language;
    assert u[|head|..|head| + |e|] == e;
    assert u[|head| + |e|..|head| + |e| + |LimitParam|] == LimitParam;
    assert u[|head| + |e| + |LimitParam|..] == d;
    if '%' !in s.term {
      EscapeRoundTrip(s.term);
    }
    ParseIntRoundTrip(s.limit);
  }

  /** The items of a reply appended after the results already gathered;
      the query itself is kept. */
  function AppendReply(s: Search, reply: seq<Item>): (r: Search)
    ensures r.term == s.term && r.language == s.language && r.limit == s.limit
    ensures |r.results| == |s.results| + |reply|
    ensures r.results[..|s.results|] == s.results
    ensures forall i :: 0 <= i < |reply| ==> r.results[|s.results| + i] == reply[i]
  {
    s.(results := s.results + reply)
  }

  /** `_evaluate_result`: one `{title, url}` entry per item of the reply, in
      document order, appended after the results already gathered; the loop
      computes `AppendReply`. */
  method EvaluateResult(s: Search, reply: seq<Item>) returns (r: Search)
    ensures r == AppendReply(s, reply)
    ensures r.term == s.term && r.language == s.language && r.limit == s.limit
    ensures |r.results| == |s.results| + |reply|
    ensures r.results[..|s.results|] == s.results
    ensures forall i :: 0 <= i < |reply| ==> r.results[|s.results| + i] == reply[i]
  {
    r := s;
    var k := 0;
    while k < |reply|
      invariant 0 <= k <= |reply|
      invariant r == AppendReply(s, reply[..k])
    {
      var item := reply[k];
      var entry := Item(item.title, item.url);
      assert reply[..k + 1] == reply[..k] + [item];
      r := r.(results := r.results + [entry]);
      k := k + 1;
    }
    assert r.results == s.results + reply;
  }

  /** `search_term` with the reply the server gives to the query URL,
      evaluated as `EvaluateResult` does. */
  function SearchTerm(s: Search, opensearch: string -> seq<Item>): (r: Search)
    ensures r.term == s.term && r.language == s.language && r.limit == s.limit
    ensures var reply := opensearch(QueryUrl(s));
      && |r.results| == |s.results| + |reply|
      && r.results[..|s.results|] == s.results
      && forall i :: 0 <= i < |reply| ==> r.results[|s.results| + i] == reply[i]
  {
    AppendReply(s, opensearch(QueryUrl(s)))
  }

  /** The results are never reset: searching twice gathers the reply twice,
      and the first search alone leaves only its own reply. */
  lemma SearchAccumulates(term: string, language: string, limit: int, opensearch: string -> seq<Item>)
    requires NewSearch(term, language, limit).Ok?
    ensures var s := NewSearch(term, language, limit).value;
      var reply := opensearch(QueryUrl(s));
      && SearchTerm(s, opensearch).results == reply
      && SearchTerm(SearchTerm(s, opensearch), opensearch).results == reply + reply
  {
    var s := NewSearch(term, language, limit).value;
    assert QueryUrl(SearchTerm(s, opensearch)) == QueryUrl(s);
  }
}

=== FILE: spans.dfy ===
/** The scraper's single pass over the `<span>` elements of an article page.
    The page is abstracted as the document-order sequence of its spans, each
    with its attribute map and its direct text (which ElementTree reports as
    `None` when the span has no text of its own). */
module Spans {
  import opened Wrappers

  datatype Span = Span(attrib: map<string, string>, text: Option<string>)

  /** A local variable of the traversal: never assigned, or assigned the
      text of some span. */
  datatype Slot = Unset | Set(text: Option<string>)

  /** The four locals the traversal leaves behind. */
  datatype Traversal = Traversal(title: Slot, latitude: Slot, longitude: Slot, elevation: Slot)

  predicate IsTitle(span: Span)
  {
    "dir" in span.attrib && span.attrib["dir"] == "auto"
  }

  predicate HasClass(span: Span, cls: string)
  {
    "class" in span.attrib && span.attrib["class"] == cls
  }

  /** Reference definition of first-match-wins: the text of the first span
      whose class is exactly `cls`. */
  function FirstOfClass(page: seq<Span>, cls: string): (r: Slot)
    ensures r.Set? <==> exists i :: 0 <= i < |page| && HasClass(page[i], cls)
    ensures r.Set? ==> exists i :: 0 <= i < |page| && HasClass(page[i], cls) && r.text == page[i].text
                          && forall j :: 0 <= j < i ==> !HasClass(page[j], cls)
  {
    if page == [] then Unset
    else if HasClass(page[0], cls) then Set(page[0].text)
    else
      var r := FirstOfClass(page[1..], cls);
      assert forall i :: 0 < i < |page| ==> page[i] == page[1..][i - 1];
      r
  }

  /** Reference definition of last-match-wins: the text of the last span
      with `dir="auto"`. */
  function LastTitle(page: seq<Span>): (r: Slot)
    ensures r.Set? <==> exists i :: 0 <= i < |page| && IsTitle(page[i])
    ensures r.Set? ==> exists i :: 0 <= i < |page| && IsTitle(page[i]) && r.text == page[i].text
                          && forall j :: i < j < |page| ==> !IsTitle(page[j])
  {
    if page == [] then Unset
    else if IsTitle(page[|page| - 1]) then Set(page[|page| - 1].text)
    else
      var r := LastTitle(page[..|page| - 1]);
      assert forall i :: 0 <= i < |page| - 1 ==> page[i] == page[..|page| - 1][i];
      r
  }

  /** What the traversal computes, stated through the reference definitions. */
  function Scan(page: seq<Span>): Traversal
  {
    Traversal(
      LastTitle(page),
      FirstOfClass(page, "latitude"),
      FirstOfClass(page, "longitude"),
      FirstOfClass(page, "elevation"))
  }

  /** The first match of a page extended by one span. */
  lemma {:induction false} FirstOfClassSnoc(page: seq<Span>, span: Span, cls: string)
    ensures FirstOfClass(page + [span], cls)
      == if FirstOfClass(page, cls).Set? then FirstOfClass(page, cls)
         else if HasClass(span, cls) then Set(span.text)
         else Unset
    decreases |page|
  {
    if page == [] {
      assert [span][1..] == [];
    } else {
      assert (page + [span])[1..] == page[1..] + [span];
      FirstOfClassSnoc(page[1..], span, cls);
    }
  }

  /** Spans after the first match of a class never change it. */
  lemma {:induction false} FirstMatchWins(a: seq<Span>, b: seq<Span>, cls: string)
    ensures FirstOfClass(a + b, cls)
      == if FirstOfClass(a, cls).Set? then FirstOfClass(a, cls) else FirstOfClass(b, cls)
    decreases |a|
  {
    if a == [] {
      assert a + b == b;
    } else {
      assert (a + b)[1..] == a[1..] + b;
      FirstMatchWins(a[1..], b, cls);
    }
  }

  /** A later title span always replaces an earlier one. */
  lemma {:induction false} LastMatchWins(a: seq<Span>, b: seq<Span>)
    ensures LastTitle(a + b) == if LastTitle(b).Set? then LastTitle(b) else LastTitle(a)
    decreases |b|
  {
    if b == [] {
      assert a + b == a;
    } else {
      var n := |b| - 1;
      assert (a + b)[..|a + b| - 1] == a + b[..n];
      assert (a + b)[|a + b| - 1] == b[n];
      LastMatchWins(a, b[..n]);
    }
  }

  /** wegweiser's loop over the spans: the title is overwritten by every
      `dir="auto"` span, and each coordinate class is taken only while its
      local is still unassigned. */
  method TraverseSpans(page: seq<Span>) returns (t: Traversal)
    ensures t == Scan(page)
  {
    t := Traversal(Unset, Unset, Unset, Unset);
    var i := 0;
    while i < |page|
      invariant 0 <= i <= |page|
      invariant t == Scan(page[..i])
    {
      var tag := page[i];
      assert page[..i + 1] == page[..i] + [tag];
      FirstOfClassSnoc(page[..i], tag, "latitude");
      FirstOfClassSnoc(page[..i], tag, "longitude");
      FirstOfClassSnoc(page[..i], tag, "elevation");
      if "dir" in tag.attrib {
        if tag.attrib["dir"] == "auto" {
          t := t.(title := Set(tag.text));
        }
      }
      if "class" in tag.attrib {
        if tag.attrib["class"] == "latitude" {
          if t.latitude.Unset? {
            t := t.(latitude := Set(tag.text));
          }
        } else if tag.attrib["class"] == "longitude" {
          if t.longitude.Unset? {
            t := t.(longitude := Set(tag.text));
          }
        } else if tag.attrib["class"] == "elevation" {
          if t.elevation.Unset? {
            t := t.(elevation := Set(tag.text));
          }
        }
      }
      i := i + 1;
    }
    assert page[..i] == page;
  }
}

=== FILE: spots.dfy ===
/** Geographic spots: the record a scrape leaves behind, built either from
    an article scraper or from the first candidate of a search. */
module Spots {
  import opened Wrappers
  import opened Errors
  import opened Numbers
  import opened Spans
  import opened Searching
  import opened Scraping

  /** What the server answers: the open-search reply to a query URL, and the
      spans of the page behind a printable article URL. */
  datatype Web = Web(opensearch: string -> seq<Item>, article: string -> seq<Span>)

  /** A spot: the fields of a finished scrape, copied. */
  datatype Spot = Spot(title: Option<string>, url: string, latitude: Option<real>,
                       longitude: Option<real>, elevation: Option<real>)

  /** `Spot.from_scrape`: scrape the printable page of the scraper's URL and
      copy what the scrape stored. */
  function FromScrape(scrape: Scrape, web: Web, readers: Readers): (r: Outcome<Spot>)
    ensures r.Err? <==> ScrapeUrl(scrape, web.article(PrintableUrl(scrape.url)), readers).Err?
    ensures r.Err? ==> r.error == ScrapeUrl(scrape, web.article(PrintableUrl(scrape.url)), readers).error
    ensures r.Ok? ==> r.value.url == scrape.url
  {
    var done :- ScrapeUrl(scrape, web.article(PrintableUrl(scrape.url)), readers);
    Ok(Spot(done.title, done.url, done.latitude, done.longitude, done.elevation))
  }

  /** A spot from a scrape carries the scraper's URL, the last title span's
      text, and the readings of the first latitude and longitude spans of the
      printable page; the elevation is the first elevation span's number, or
      the scraper's previous elevation when the page has none. */
  lemma {:induction false} FromScrapeFields(scrape: Scrape, web: Web, readers: Readers)
    requires FromScrape(scrape, web, readers).Ok?
    ensures var spot := FromScrape(scrape, web, readers).value;
      var page := web.article(PrintableUrl(scrape.url));
      && spot.url == scrape.url
      && LastTitle(page).Set? && spot.title == LastTitle(page).text
      && FirstOfClass(page, "latitude").Set? && spot.latitude.Some?
      && Reading(scrape, FirstOfClass(page, "latitude").text, readers) == Ok(spot.latitude.value)
      && FirstOfClass(page, "longitude").Set? && spot.longitude.Some?
      && Reading(scrape, FirstOfClass(page, "longitude").text, readers) == Ok(spot.longitude.value)
      && Elevation(FirstOfClass(page, "elevation"), scrape.elevation, readers) == Ok(spot.elevation)
  {
    ScrapeFields(scrape, web.article(PrintableUrl(scrape.url)), readers);
  }

  /** The spot is the scrape's own record: the scraper after the scrape
      holds exactly the spot's fields. */
  lemma {:induction false} FromScrapeCopies(scrape: Scrape, web: Web, readers: Readers)
    requires FromScrape(scrape, web, readers).Ok?
    ensures var spot := FromScrape(scrape, web, readers).value;
      ScrapeUrl(scrape, web.article(PrintableUrl(scrape.url)), readers)
        == Ok(Scrape(spot.url, spot.title, spot.latitude, spot.longitude, spot.elevation))
  {
  }

  /** `Spot.from_search`: search, then scrape the first candidate; without
      candidates `results[0]` raises `IndexError` before anything is
      scraped. */
  function FromSearch(search: Search, web: Web, readers: Readers): (r: Outcome<Spot>)
    ensures SearchTerm(search, web.opensearch).results == [] ==> r == Err(EmptyResults) && Class(r.error) == IndexError
    ensures r.Ok? ==> SearchTerm(search, web.opensearch).results != []
                      && r.value.url == SearchTerm(search, web.opensearch).results[0].url
  {
    var searched := SearchTerm(search, web.opensearch);
    if searched.results == [] then Err(EmptyResults)
    else
      var scrape :- NewScrape(searched.results[0].url);
      FromScrape(scrape, web, readers)
  }

  /** A fresh search yields the spot of the first item of the server's
      reply, scraped by a fresh scraper. */
  lemma {:induction false} FromFreshSearch(term: string, language: string, limit: int, web: Web, readers: Readers)
    requires NewSearch(term, language, limit).Ok?
    ensures var s := NewSearch(term, language, limit).value;
      var reply := web.opensearch(QueryUrl(s));
      FromSearch(s, web, readers)
        == if reply == [] then Err(EmptyResults)
           else if NewScrape(reply[0].url).Err? then Err(InvalidUrl(reply[0].url))
           else FromScrape(NewScrape(reply[0].url).value, web, readers)
  {
    SearchAccumulates(term, language, limit, web.opensearch);
  }

  /** The only `IndexError` of `from_search` is the empty candidate list:
      a failing scrape of the first candidate raises something else. */
  lemma {:induction false} FromSearchIndexError(search: Search, web: Web, readers: Readers)
    requires FromSearch(search, web, readers).Err?
    ensures Class(FromSearch(search, web, readers).error) == IndexError
        <==> SearchTerm(search, web.opensearch).results == []
    ensures !FromSearch(search, web, readers).error.NoSearchResults?
  {
    var searched := SearchTerm(search, web.opensearch);
    if searched.results != [] {
      var scrape := NewScrape(searched.results[0].url);
      if scrape.Ok? {
        ScrapeErrors(scrape.value, web.article(PrintableUrl(scrape.value.url)), readers);
      }
    }
  }
}

=== FILE: text.dfy ===
/** The handful of Python `str` operations the pipeline uses, on `seq<char>`:
    `replace` of one character, the substring test `in`, `split()` on
    whitespace, `split(sep)` on one separator, and `strip()`. */
module Text {

  /** Python 2's notion of a whitespace character in a unicode string (what
      `split()` and `strip()` drop): the ASCII controls tab to carriage
      return, the file/group/record/unit separators, space, next-line,
      no-break space, and the Unicode space separators of Python 2.7's
      character database. */
  predicate IsSpace(c: char)
  {
    || ('\t' <= c <= '\r')
    || ('\U{1C}' <= c <= '\U{1F}')
    || c == ' '
    || c == '\U{85}'
    || c == '\U{A0}'
    || c == '\U{1680}'
    || c == '\U{180E}'
    || ('\U{2000}' <= c <= '\U{200A}')
    || c == '\U{2028}'
    || c == '\U{2029}'
    || c == '\U{202F}'
    || c == '\U{205F}'
    || c == '\U{3000}'
  }

  predicate NoSpace(s: string)
  {
    forall i :: 0 <= i < |s| ==> !IsSpace(s[i])
  }

  predicate AllSpace(s: string)
  {
    forall i :: 0 <= i < |s| ==> IsSpace(s[i])
  }

  /** Number of occurrences of `c` in `s`. */
  function Count(s: string, c: char): nat
  {
    if s == [] then 0 else (if s[0] == c then 1 else 0) + Count(s[1..], c)
  }

  /** `s.replace(c, by)` for a one-character pattern. */
  function ReplaceChar(s: string, c: char, repl: string): (r: string)
    ensures c !in repl ==> c !in r
    ensures c !in s ==> r == s
  {
    if s == [] then []
    else (if s[0] == c then repl else [s[0]]) + ReplaceChar(s[1..], c, repl)
  }

  /** Each occurrence of `c` grows the text by `|repl| - 1` characters. */
  lemma {:induction false} ReplaceCharLength(s: string, c: char, repl: string)
    ensures |ReplaceChar(s, c, repl)| == |s| + Count(s, c) * (|repl| - 1)
    decreases |s|
  {
    if s != [] {
      ReplaceCharLength(s[1..], c, repl);
      var n := Count(s[1..], c);
      if s[0] == c {
        assert (n + 1) * (|repl| - 1) == n * (|repl| - 1) + |repl| - 1;
      }
    }
  }

  /** Replacing distributes over concatenation, so the replacement of a
      character never reaches across the boundary of two pieces. */
  lemma {:induction false} ReplaceCharAppend(a: string, b: string, c: char, repl: string)
    ensures ReplaceChar(a + b, c, repl) == ReplaceChar(a, c, repl) + ReplaceChar(b, c, repl)
    decreases |a|
  {
    if a == [] {
      assert a + b == b;
    } else {
      assert (a + b)[1..] == a[1..] + b;
      ReplaceCharAppend(a[1..], b, c, repl);
    }
  }

  /** A single character is replaced exactly when it is `c`. */
  lemma ReplaceSingle(x: char, c: char, repl: string)
    ensures ReplaceChar([x], c, repl) == if x == c then repl else [x]
  {
    assert [x][1..] == [];
  }

  /** Leading whitespace does not change the words. */
  lemma SplitLeadingSpace(sp: char, s: string)
    requires IsSpace(sp)
    ensures Split([sp] + s) == Split(s)
  {
    assert ([sp] + s)[1..] == s;
  }

  predicate StartsWith(s: string, prefix: string)
  {
    |prefix| <= |s| && s[..|prefix|] == prefix
  }

  /** Python's `sub in s` for strings. */
  predicate Contains(s: string, sub: string)
    decreases |s|
  {
    StartsWith(s, sub) || (s != [] && Contains(s[1..], sub))
  }

  /** `sub` occurs in `s` starting at position `i`. */
  predicate OccursAt(s: string, sub: string, i: int)
  {
    0 <= i <= |s| - |sub| && s[i..i + |sub|] == sub
  }

  /** `Contains` holds exactly when `sub` occurs at some position of `s`. */
  lemma {:induction false} ContainsAt(s: string, sub: string)
    ensures Contains(s, sub) <==> exists i :: OccursAt(s, sub, i)
    decreases |s|
  {
    if s != [] {
      ContainsAt(s[1..], sub);
      if Contains(s[1..], sub) {
        var i :| OccursAt(s[1..], sub, i);
        assert s[i + 1..i + 1 + |sub|] == sub;
        assert OccursAt(s, sub, i + 1);
      }
      if exists i :: OccursAt(s, sub, i) {
        var i :| OccursAt(s, sub, i);
        if i > 0 {
          assert s[1..][i - 1..i - 1 + |sub|] == sub;
          assert OccursAt(s[1..], sub, i - 1);
        }
      }
    }
    if StartsWith(s, sub) {
      assert OccursAt(s, sub, 0);
    }
  }

  /** An occurrence inside a piece is an occurrence in the whole. */
  lemma {:induction false} ContainsExtend(pre: string, mid: string, post: string, sub: string)
    requires Contains(mid, sub)
    ensures Contains(pre + mid + post, sub)
  {
    ContainsAt(mid, sub);
    var i :| OccursAt(mid, sub, i);
    var s := pre + mid + post;
    assert s[|pre| + i..|pre| + i + |sub|] == sub;
    assert OccursAt(s, sub, |pre| + i);
    ContainsAt(s, sub);
  }

  /** Length of the run of non-whitespace characters at the start of `s`. */
  function WordLength(s: string): (k: nat)
    ensures k <= |s|
    ensures NoSpace(s[..k])
    ensures k < |s| ==> IsSpace(s[k])
  {
    if s == [] || IsSpace(s[0]) then 0
    else
      var k := 1 + WordLength(s[1..]);
      assert s[..k] == [s[0]] + s[1..][..k - 1];
      k
  }

  /** Python's `s.split()`: the maximal runs of non-whitespace, in order. */
  function Split(s: string): (words: seq<string>)
    ensures forall w :: w in words ==> w != [] && NoSpace(w)
    decreases |s|
  {
    if s == [] then []
    else if IsSpace(s[0]) then Split(s[1..])
    else
      var k := WordLength(s);
      [s[..k]] + Split(s[k..])
  }

  lemma {:induction false} WordLengthAppend(a: string, b: string)
    requires WordLength(a) < |a| || (b != [] && IsSpace(b[0]))
    ensures WordLength(a + b) == WordLength(a)
    decreases |a|
  {
    if a != [] && !IsSpace(a[0]) {
      assert (a + b)[1..] == a[1..] + b;
      WordLengthAppend(a[1..], b);
    }
  }

  /** A whitespace character separates: the words of `a sp b` are the
      words of `a` followed by the words of `b`. */
  lemma {:induction false} SplitAppend(a: string, sp: char, b: string)
    requires IsSpace(sp)
    ensures Split(a + [sp] + b) == Split(a) + Split(b)
    decreases |a|
  {
    if a == [] {
      assert (a + [sp] + b)[1..] == b;
    } else if IsSpace(a[0]) {
      SplitAppendSpace(a, sp, b);
      SplitAppend(a[1..], sp, b);
    } else {
      SplitAppendWord(a, sp, b);
      SplitAppend(a[WordLength(a)..], sp, b);
    }
  }

  /** One step of `SplitAppend` past leading whitespace of `a`. */
  lemma {:induction false} SplitAppendSpace(a: string, sp: char, b: string)
    requires a != [] && IsSpace(a[0])
    ensures Split(a + [sp] + b) == Split(a[1..] + [sp] + b)
    ensures Split(a) == Split(a[1..])
  {
    assert (a + [sp] + b)[1..] == a[1..] + [sp] + b;
  }

  /** One step of `SplitAppend` past the first word of `a`. */
  lemma {:induction false} SplitAppendWord(a: string, sp: char, b: string)
    requires IsSpace(sp) && a != [] && !IsSpace(a[0])
    ensures var k := WordLength(a);
      && 0 < k <= |a|
      && Split(a + [sp] + b) == [a[..k]] + Split(a[k..] + [sp] + b)
      && Split(a) == [a[..k]] + Split(a[k..])
  {
    var s := a + [sp] + b;
    WordLengthAppend(a, [sp] + b);
    assert s == a + ([sp] + b);
    var k := WordLength(a);
    assert s[..k] == a[..k];
    assert s[k..] == a[k..] + [sp] + b;
  }

  /** A single non-empty word splits into itself. */
  lemma {:induction false} SplitWord(w: string)
    requires w != [] && NoSpace(w)
    ensures Split(w) == [w]
  {
    WordLengthAll(w);
    assert w[..|w|] == w;
  }

  lemma {:induction false} WordLengthAll(w: string)
    requires NoSpace(w)
    ensures WordLength(w) == |w|
    decreases |w|
  {
    if w != [] {
      WordLengthAll(w[1..]);
    }
  }

  /** Whitespace alone splits into nothing. */
  lemma {:induction false} SplitSpaces(s: string)
    requires AllSpace(s)
    ensures Split(s) == []
    decreases |s|
  {
    if s != [] {
      SplitSpaces(s[1..]);
    }
  }

  /** Position of the first `c` in `s`. */
  function IndexOf(s: string, c: char): (i: nat)
    requires c in s
    ensures i < |s|
  {
    if s[0] == c then 0 else 1 + IndexOf(s[1..], c)
  }

  /** `IndexOf` finds an occurrence, and there is none before it. */
  lemma {:induction false} IndexOfFirstOccurrence(s: string, c: char)
    requires c in s
    ensures var i := IndexOf(s, c); s[i] == c && c !in s[..i]
    decreases |s|
  {
    if s[0] != c {
      assert c in s[1..] by {
        var k :| 0 <= k < |s| && s[k] == c;
        assert s[1..][k - 1] == c;
      }
      IndexOfFirstOccurrence(s[1..], c);
      var i := IndexOf(s, c);
      assert s[..i] == [s[0]] + s[1..][..i - 1];
    }
  }

  /** Python's `s.split(sep)` for a one-character separator: empty pieces
      are kept, so there is always one more piece than separators. */
  function SplitOn(s: string, sep: char): (parts: seq<string>)
    ensures |parts| == Count(s, sep) + 1
    ensures forall p :: p in parts ==> sep !in p
    decreases |s|
  {
    if sep !in s then
      CountAbsent(s, sep);
      [s]
    else
      var i := IndexOf(s, sep);
      IndexOfFirstOccurrence(s, sep);
      CountSplit(s[..i], s[i + 1..], sep);
      assert s == s[..i] + [sep] + s[i + 1..];
      CountAbsent(s[..i], sep);
      [s[..i]] + SplitOn(s[i + 1..], sep)
  }

  lemma {:induction false} CountAbsent(s: string, c: char)
    requires c !in s
    ensures Count(s, c) == 0
    decreases |s|
  {
    if s != [] {
      CountAbsent(s[1..], c);
    }
  }

  lemma {:induction false} CountSplit(a: string, b: string, c: char)
    ensures Count(a + [c] + b, c) == Count(a, c) + 1 + Count(b, c)
    decreases |a|
  {
    if a == [] {
      assert (a + [c] + b)[1..] == b;
    } else {
      assert (a + [c] + b)[1..] == a[1..] + [c] + b;
      CountSplit(a[1..], b, c);
    }
  }

  /** `sep.join(parts)`. */
  function JoinWith(parts: seq<string>, sep: char): string
    requires parts != []
  {
    if |parts| == 1 then parts[0] else parts[0] + [sep] + JoinWith(parts[1..], sep)
  }

  /** Joining the pieces back with the separator gives the original text. */
  lemma {:induction false} SplitOnJoin(s: string, sep: char)
    ensures JoinWith(SplitOn(s, sep), sep) == s
    decreases |s|
  {
    if sep in s {
      var i := IndexOf(s, sep);
      IndexOfFirstOccurrence(s, sep);
      SplitOnJoin(s[i + 1..], sep);
      assert s == s[..i] + [sep] + s[i + 1..];
    }
  }

  /** Splitting a join of separator-free pieces gives the pieces back. */
  lemma {:induction false} JoinSplitOn(parts: seq<string>, sep: char)
    requires parts != []
    requires forall p :: p in parts ==> sep !in p
    ensures SplitOn(JoinWith(parts, sep), sep) == parts
    decreases |parts|
  {
    if |parts| > 1 {
      assert parts[1] in parts[1..];
      assert parts[0] in parts;
      JoinSplitOn(parts[1..], sep);
      SplitOnFirst(parts[0], sep, JoinWith(parts[1..], sep));
    }
  }

  /** Text up to the first separator is the first piece. */
  lemma {:induction false} SplitOnFirst(a: string, sep: char, b: string)
    requires sep !in a
    ensures SplitOn(a + [sep] + b, sep) == [a] + SplitOn(b, sep)
  {
    var s := a + [sep] + b;
    IndexOfFirst(a, sep, b);
    assert s[..|a|] == a;
    assert s[|a| + 1..] == b;
  }

  /** The first `c` in `a + [c] + b`, when `a` has none, is the one after `a`. */
  lemma {:induction false} IndexOfFirst(a: string, c: char, b: string)
    requires c !in a
    ensures c in a + [c] + b && IndexOf(a + [c] + b, c) == |a|
  {
    var s := a + [c] + b;
    assert s[|a|] == c;
    IndexOfFirstOccurrence(s, c);
    var i := IndexOf(s, c);
    if i < |a| {
      assert false;
    } else if i > |a| {
      assert false;
    }
  }

  /** Python's `s.strip()`: whitespace removed from both ends. */
  function Strip(s: string): string
  {
    StripRight(StripLeft(s))
  }

  /** What `strip()` keeps is the slice of the text after its leading
      whitespace, with only whitespace after it, and it begins and ends with a
      non-whitespace character. */
  lemma {:induction false} StripSlice(s: string)
    ensures var t, i := Strip(s), |s| - |StripLeft(s)|;
      && 0 <= i && i + |t| <= |s| && s[i..i + |t|] == t
      && AllSpace(s[..i]) && AllSpace(s[i + |t|..])
      && (t != [] ==> !IsSpace(t[0]) && !IsSpace(t[|t| - 1]))
  {
    var l := StripLeft(s);
    var r := StripRight(l);
    StripLeftSlice(s);
    StripRightSlice(l);
    assert s[|s| - |l|..|s| - |l| + |r|] == r;
    assert s[|s| - |l| + |r|..] == l[|r|..];
  }

  /** `lstrip()`: the text after its leading whitespace. */
  function StripLeft(s: string): string
  {
    if s != [] && IsSpace(s[0]) then StripLeft(s[1..]) else s
  }

  lemma {:induction false} StripLeftSlice(s: string)
    ensures var t := StripLeft(s);
      && |t| <= |s| && t == s[|s| - |t|..]
      && AllSpace(s[..|s| - |t|])
      && (t != [] ==> !IsSpace(t[0]))
  {
    if s != [] && IsSpace(s[0]) {
      StripLeftSlice(s[1..]);
      var t := StripLeft(s[1..]);
      assert s[..|s| - |t|] == [s[0]] + s[1..][..|s[1..]| - |t|];
    }
  }

  /** `rstrip()`: the text before its trailing whitespace. */
  function StripRight(s: string): string
  {
    if s != [] && IsSpace(s[|s| - 1]) then StripRight(s[..|s| - 1]) else s
  }

  lemma {:induction false} StripRightSlice(s: string)
    ensures var t := StripRight(s);
      && |t| <= |s| && t == s[..|t|]
      && AllSpace(s[|t|..])
      && (t != [] ==> !IsSpace(t[|t| - 1]))
  {
    if s != [] && IsSpace(s[|s| - 1]) {
      StripRightSlice(s[..|s| - 1]);
      var t := StripRight(s[..|s| - 1]);
      assert s[|t|..] == s[..|s| - 1][|t|..] + [s[|s| - 1]];
    }
  }

  /** Text without surrounding whitespace is left alone by `strip()`. */
  lemma StripTrimmed(s: string)
    requires s == [] || (!IsSpace(s[0]) && !IsSpace(s[|s| - 1]))
    ensures Strip(s) == s
  {
  }
}

=== FILE: wikiurl.dfy ===
/** The Wikipedia article URL pattern `^<scheme>://(de|en|fr).wikipedia.org/wiki/.+`
    as Python's `re.match` applies it, and the English-locale test. */
module WikiUrl {
  import opened Text

  /** The supported Wikipedia locales, in the order wegweiser lists them. */
  const Languages: seq<string> := ["de", "en", "fr"]

  /** Where the regular expression `.` stands, any character but a newline
      matches; everywhere else the text must match literally. */
  predicate MatchesTemplate(s: string, template: string)
  {
    && |template| <= |s|
    && forall i :: 0 <= i < |template| ==>
         if template[i] == '.' then s[i] != '\n' else s[i] == template[i]
  }

  /** The part of the pattern after the alternation of languages; its dots
      are unescaped in wegweiser and so are wildcards, and the trailing
      `.` is the one character `.+` needs at least. */
  const HostAndPath: string := ".wikipedia.org/wiki/."

  /** `re.match` of the article pattern for the given scheme. The match is
      anchored at the start only, and all three alternatives have two
      letters, so the pattern matches exactly when some language's fixed
      template matches a prefix of the URL. */
  predicate Matches(url: string, scheme: string)
  {
    exists lang :: lang in Languages && MatchesTemplate(url, scheme + "://" + lang + HostAndPath)
  }

  /** The locale switch of the scraper: a substring test on the whole URL. */
  predicate IsEnglish(url: string)
  {
    Contains(url, "en.wikipedia.org")
  }

  /** `<scheme>://<lang>.wikipedia.org/wiki/<article>`. */
  function ArticleUrl(scheme: string, lang: string, article: string): string
  {
    scheme + "://" + lang + ".wikipedia.org/wiki/" + article
  }

  /** An article URL built from two letters and an article name matches the
      pattern exactly when the letters are a supported language and the
      article name starts with a character other than a newline. */
  lemma {:induction false} ArticleUrlMatches(scheme: string, lang: string, article: string)
    requires '.' !in scheme && |lang| == 2
    ensures Matches(ArticleUrl(scheme, lang, article), scheme)
        <==> lang in Languages && article != [] && article[0] != '\n'
  {
    var url := ArticleUrl(scheme, lang, article);
    var n := |scheme| + 3;
    if lang in Languages && article != [] && article[0] != '\n' {
      var t := scheme + "://" + lang + HostAndPath;
      assert MatchesTemplate(url, t) by {
        assert |t| == n + 2 + 21;
        forall i | 0 <= i < |t|
          ensures if t[i] == '.' then url[i] != '\n' else url[i] == t[i]
        {
          if i < |t| - 1 {
            assert url[i] == t[i];
          } else {
            assert url[i] == article[0];
          }
        }
      }
    }
    if Matches(url, scheme) {
      var l :| l in Languages && MatchesTemplate(url, scheme + "://" + l + HostAndPath);
      var t := scheme + "://" + l + HostAndPath;
      assert |l| == 2;
      assert |url| >= |t|;
      assert lang == l by {
        assert url[n] == t[n] && url[n + 1] == t[n + 1];
        assert url[n] == lang[0] && url[n + 1] == lang[1];
      }
      assert url[|t| - 1] == article[0];
    }
  }

  /** No URL matches both the `https` and the `http` pattern: the character
      after `http` is `s` in one and `:` in the other. */
  lemma {:induction false} SchemesDisjoint(url: string)
    requires Matches(url, "https")
    ensures !Matches(url, "http")
  {
    var l :| l in Languages && MatchesTemplate(url, "https://" + l + HostAndPath);
    assert url[4] == 's';
    forall k | k in Languages
      ensures !MatchesTemplate(url, "http://" + k + HostAndPath)
    {
      assert ("http://" + k + HostAndPath)[4] == ':';
    }
  }

  /** The same disjointness read from the `http` side. */
  lemma HttpNotHttps(url: string)
    requires Matches(url, "http")
    ensures !Matches(url, "https")
  {
    if Matches(url, "https") {
      SchemesDisjoint(url);
    }
  }

  /** Only a prefix of the URL is examined: anything may follow a match. */
  lemma {:induction false} MatchesExtend(url: string, scheme: string, rest: string)
    requires Matches(url, scheme)
    ensures Matches(url + rest, scheme)
  {
    var l :| l in Languages && MatchesTemplate(url, scheme + "://" + l + HostAndPath);
    var t := scheme + "://" + l + HostAndPath;
    assert forall i :: 0 <= i < |t| ==> (url + rest)[i] == url[i];
    assert MatchesTemplate(url + rest, t);
  }

  /** The unescaped dots match any character, so a host that is not
      Wikipedia's is accepted. */
  lemma DotMatchesAnyCharacter()
    ensures Matches("http://enXwikipediaYorg/wiki/A", "http")
  {
    var url := "http://enXwikipediaYorg/wiki/A";
    var t := "http://" + "en" + HostAndPath;
    assert Languages[1] == "en";
    assert |t| == 30;
    forall i | 0 <= i < |t|
      ensures if t[i] == '.' then url[i] != '\n' else url[i] == t[i]
    {
    }
    assert MatchesTemplate(url, t);
    assert "en" in Languages;
  }

  /** The URLs wegweiser's tests expect to be accepted and rejected. */
  lemma {:induction false} TestUrls()
    ensures Matches(ArticleUrl("http", "en", "New_York_City"), "http")
    ensures !Matches(ArticleUrl("http", "it", "New_York_City"), "http")
    ensures !Matches(ArticleUrl("http", "de", ""), "http")
    ensures !Matches("http://www.google.de/", "http")
  {
    ArticleUrlMatches("http", "en", "New_York_City");
    ArticleUrlMatches("http", "it", "New_York_City");
    ArticleUrlMatches("http", "de", "");
    forall l | l in Languages
      ensures !MatchesTemplate("http://www.google.de/", "http://" + l + HostAndPath)
    {
      assert |"http://" + l + HostAndPath| == 30;
    }
  }

  /** The English switch looks at the whole URL, article name included. */
  lemma {:induction false} EnglishAnywhere(pre: string, article: string)
    requires Contains(article, "en.wikipedia.org")
    ensures IsEnglish(pre + article)
  {
    ContainsExtend(pre, article, "", "en.wikipedia.org");
    assert pre + article + "" == pre + article;
  }

  /** On a German or French article URL the English switch fires exactly
      when the article name itself mentions `en.wikipedia.org`: the host and
      path hold no `n`, and the `/` before the article name cuts off any
      occurrence that would straddle it. */
  lemma {:induction false} NonEnglishHost(lang: string, article: string)
    requires lang == "de" || lang == "fr"
    ensures IsEnglish(ArticleUrl("http", lang, article)) <==> Contains(article, "en.wikipedia.org")
  {
    var sub := "en.wikipedia.org";
    var host := "http://" + lang + ".wikipedia.org/wiki/";
    var url := ArticleUrl("http", lang, article);
    assert url == host + article;
    NonEnglishHostText(lang);
    if Contains(article, sub) {
      EnglishAnywhere(host, article);
    }
    if IsEnglish(url) {
      ContainsAt(url, sub);
      var i :| OccursAt(url, sub, i);
      OccurrenceAfterSlash(host, article, i);
      ContainsAt(article, sub);
    }
  }

  /** The host and path of a German or French article URL: no `n`, and a
      `/` at the end. */
  lemma NonEnglishHostText(lang: string)
    requires lang == "de" || lang == "fr"
    ensures var host := "http://" + lang + ".wikipedia.org/wiki/";
      host != [] && host[|host| - 1] == '/' && 'n' !in host
  {
    if lang == "de" {
      assert "http://" + lang + ".wikipedia.org/wiki/" == "http://de.wikipedia.org/wiki/";
    } else {
      assert "http://" + lang + ".wikipedia.org/wiki/" == "http://fr.wikipedia.org/wiki/";
    }
  }

  /** Behind a prefix without `n` that ends in `/`, every occurrence of
      `en.wikipedia.org` lies wholly in what follows the prefix. */
  lemma OccurrenceAfterSlash(host: string, article: string, i: int)
    requires host != [] && host[|host| - 1] == '/' && 'n' !in host
    requires OccursAt(host + article, "en.wikipedia.org", i)
    ensures i >= |host| && OccursAt(article, "en.wikipedia.org", i - |host|)
  {
    var url, sub := host + article, "en.wikipedia.org";
    assert url[i..i + |sub|] == sub;
    assert url[i] == 'e' && url[i + 1] == 'n';
    if i < |host| - 1 {
      assert false;
    } else if i == |host| - 1 {
      assert false;
    }
    assert article[i - |host|..i - |host| + |sub|] == url[i..i + |sub|];
  }

  /** An English-host URL takes the English branch. */
  lemma {:induction false} EnglishHost(scheme: string, article: string)
    ensures IsEnglish(ArticleUrl(scheme, "en", article))
  {
    var sub := "en.wikipedia.org";
    assert StartsWith(sub, sub);
    assert Contains(sub, sub);
    ContainsExtend(scheme + "://", sub, "/wiki/" + article, sub);
    assert scheme + "://" + sub + ("/wiki/" + article) == ArticleUrl(scheme, "en", article);
  }
}

=== FILE: wrappers.dfy ===
/** Failure-compatible wrappers used throughout the model: `Option` for a
    value Python may leave as `None`, `Result` for a computation that either
    returns or raises. Both work with Dafny's `:-` operator. */
module Wrappers {

  datatype Option<+T> = None | Some(value: T) {

    predicate IsFailure() {
      None?
    }

    function PropagateFailure<U>(): Option<U>
      requires None?
    {
      None
    }

    function Extract(): T
      requires Some?
    {
      value
    }
  }

  datatype Result<+T, +E> = Ok(value: T) | Err(error: E) {

    predicate IsFailure() {
      Err?
    }

    function PropagateFailure<U>(): Result<U, E>
      requires Err?
    {
      Err(error)
    }

    function Extract(): T
      requires Ok?
    {
      value
    }
  }
}
